=== FILE: README.md ===
# ElasticUtil, modelled in Dafny

`ElasticUtil` is a thin Java client for an Elasticsearch cluster over its
REST interface. It builds request URLs and bodies by string formatting and
sends them through a pooled HTTP client with a retry policy. It reports
its outcomes as booleans, nullable strings, a nullable array of index
names, or a `BulkResponse` (success, partial failure with the per-item
results, or request failure with the error object). The CSV dump returns
nothing; its effect is the text it appends to a file. This project models
that client:

- the retry policy;
- the GET/POST/PUT request shapes;
- single-document insert, update and fetch;
- the bulk endpoint and every bulk builder;
- the time-buffered bulk writer;
- scroll search and the scroll-to-CSV dump;
- the `_cat/indices` name listing;
- the two query-fragment joiners;
- S3 snapshot repositories: their existence check and their creation;
- taking and restoring a snapshot.

The network is a parameter. An operation that sends one request receives
the server as a function from request to reply, and returns what it
computed together with the requests it sent (`Http.Exchange`). The
scroll dump talks to a stateful server, so it receives the reply to the
first search and the sequence of replies to the scroll requests that
follow. A reply is either an I/O failure (the retry policy gave up) or a
status with the body text and, when that text is a JSON object, its parse.
The JSON library's lookups and coercions are modelled in `Json`, and so is
its compact `toString`.

The buffered writer is a class: the buffer `sb` and the clock reading
`lasttime` are fields that its one method updates. Ghost fields record:

- the records still buffered;
- the batches already submitted;
- every record ever appended.

Its invariant ties the buffer text to the buffered records, and accounts
for every record exactly once. The loops of the source become methods
with loop invariants:

- the bulk body builders;
- the scroll dump's page loop and its per-hit loop;
- the index-name extraction;
- the in-place quoting of the two joiners;
- the copy of the allow-listed S3 settings.

Each of these is proved against a function that specifies it. Three
behaviours of the code are worth knowing, and the model keeps them:

- a single-document insert is sent as a POST;
- the retry policy retries `NoHttpResponseException`;
- `checkIndexExist` reports an index present on every status but 404,
  server errors included.

## Model

| member | source | states |
|---|---|---|
| Retry.RetryRequest | src/main/java/com/quickutil/platform/ElasticUtil.java:60-93 | Never a retry from the fifth execution on. Below that, the `instanceof` checks run in the source's order and the first match decides. An unclassified failure is retried only for a request that encloses no entity. Every retried POST or PUT failed with a transient failure. |
| Retry.SubclassesDecidedFirst | src/main/java/com/quickutil/platform/ElasticUtil.java:68-82 | A TLS handshake failure is an `SSLException` and is not retried. A socket timeout is an `InterruptedIOException` and is retried. Each is decided by the earlier, more specific check. |
| Retry.OtherFailuresRetryOnlyBodiless | src/main/java/com/quickutil/platform/ElasticUtil.java:86-91 | After an unclassified I/O failure a GET is retried, and a POST or PUT never is. |
| Http.PostRequest | src/main/java/com/quickutil/platform/ElasticUtil.java:117-124 | A POST to the given URL. An empty or missing entity is not attached, and any other entity is attached as it is given, as characters. |
| Documents.SelectById | src/main/java/com/quickutil/platform/ElasticUtil.java:134-149 | One GET of `host/index/type/id/_source`, with null arguments formatted as "null". The result is the reply text exactly when the status is 200, and null otherwise. |
| Documents.BodyIfOk | src/main/java/com/quickutil/platform/ElasticUtil.java:140-143 | The reply text exactly on status 200; nothing otherwise. |
| Documents.DocumentUrl | src/main/java/com/quickutil/platform/ElasticUtil.java:166 | The formatted document address contains no space. |
| Documents.DocumentUrlParts | src/main/java/com/quickutil/platform/ElasticUtil.java:166 | Stripping spaces from the whole address is the same as stripping each part: the slashes between parts stay where they are. |
| Documents.DocumentUrlIgnoresSpaces | src/main/java/com/quickutil/platform/ElasticUtil.java:166 | Arguments that differ only in spaces address the same document. |
| Documents.Insert | src/main/java/com/quickutil/platform/ElasticUtil.java:160-180 | A null index, type or id means false with nothing sent. Otherwise exactly one POST of the source (the empty object when null) is sent to the space-free document address. The result is true exactly on 200 or 201. |
| Documents.UpdateOutcome | src/main/java/com/quickutil/platform/ElasticUtil.java:208-216 | 200 or 201 is an update and 404 a missing document; anything else, no reply included, is a failure. |
| Documents.Update | src/main/java/com/quickutil/platform/ElasticUtil.java:192-222 | A null index, type or id means false with nothing sent. Otherwise one POST to the document address followed by `/_update`. Its body has exactly two members: `doc`, the source, and `doc_as_upsert`, the flag. The result is true exactly when the outcome is an update. |
| Documents.UpdateUrlSuffix | src/main/java/com/quickutil/platform/ElasticUtil.java:199 | The update address is the document address followed by `/_update`. |
| Documents.MissingDocumentIsNoUpdate | src/main/java/com/quickutil/platform/ElasticUtil.java:208-212 | Against a server that answers 404, an update reports false whatever the upsert flag, and its outcome is a missing document. |
| Documents.CheckIndexExist | src/main/java/com/quickutil/platform/ElasticUtil.java:602-614 | One GET of `host/index/`. The index is reported missing exactly on 404 or when no reply arrives. |
| Documents.CheckRepositoryExist | src/main/java/com/quickutil/platform/ElasticUtil.java:799-810 | One GET of `host/_snapshot/repo`. The repository exists exactly when the status is 200. |
| Documents.ExistenceChecksDiffer | src/main/java/com/quickutil/platform/ElasticUtil.java:602-614 | Against a server that answers 500, an index counts as present and a repository as absent. |
| Bulk.Classify | src/main/java/com/quickutil/platform/ElasticUtil.java:236-253 | Success exactly on 200 with an `errors` flag that reads false. Partial failure exactly on 200 with the flag true and `items` an array or absent, carrying those items. A non-200 reply carries its `error` object. No reply, an unparsable body, a flag that cannot be read or an `error`/`items` of the wrong type is a request failure with the empty object. |
| Bulk.ClassifyReplyFor | src/main/java/com/quickutil/platform/ElasticUtil.java:231-254 | Every outcome is recovered from a reply that carries it, so no outcome is unreachable. |
| Bulk.ErrorsFlagReadsLastBinding | src/main/java/com/quickutil/platform/ElasticUtil.java:242 | `ErrorsFlag` (`get("errors").getAsBoolean()`) reads the last `errors` binding, coerced as `getAsBoolean` coerces. A reply with no `errors` member has no flag, and the call then throws. |
| Bulk.Submit | src/main/java/com/quickutil/platform/ElasticUtil.java:231-254 | Exactly one POST of the body to the URL, classified. The request has no entity exactly when the body is empty. |
| Bulk.SubmitPrepared | src/main/java/com/quickutil/platform/ElasticUtil.java:328-331 | A caller-written body, as used by `bulkInsertByStringBuffer` and both `bulkUpdateByStringBuffer` overloads (lines 414-431). It is posted to `host/_bulk`, or to `host/index/type/_bulk` when a target is given. The body is attached unless empty, and the reply is classified. |
| Bulk.BuildInsertPayload | src/main/java/com/quickutil/platform/ElasticUtil.java:314-317 | The loop writes exactly the bulk body of the entries: an `index` action naming the id, then the source, for each entry in iteration order. |
| Bulk.BuildUpdatePayload | src/main/java/com/quickutil/platform/ElasticUtil.java:350-358 | The loop writes exactly the bulk body of the update items: an `update` action, then the `doc` body with `doc_as_upsert` when the flag is set. |
| Bulk.BuildScriptPayload | src/main/java/com/quickutil/platform/ElasticUtil.java:383-395 | The loop writes exactly the bulk body of the scripted update items, in iteration order. |
| Bulk.BuildDeletePayload | src/main/java/com/quickutil/platform/ElasticUtil.java:442-446 | The loop fails exactly when `types` or `ids` is shorter than `indices`. Otherwise it writes the delete body of the first \|indices\| targets, one action line each. |
| Bulk.BulkInsert | src/main/java/com/quickutil/platform/ElasticUtil.java:307-320 | A null index or type gives a request failure with the "must specify index and type" message, and nothing is sent. Otherwise one POST of the insert body to `host/index/type/_bulk`, classified. |
| Bulk.BulkUpdate | src/main/java/com/quickutil/platform/ElasticUtil.java:343-361 | The same shape as the bulk insert, with the update items. |
| Bulk.BulkUpdateByScript | src/main/java/com/quickutil/platform/ElasticUtil.java:376-398 | The same shape as the bulk insert, with the scripted update items. |
| Bulk.BulkUpdateByGroovyScript | src/main/java/com/quickutil/platform/ElasticUtil.java:403-405 | The scripted update with the language "groovy". |
| Bulk.BulkDelete | src/main/java/com/quickutil/platform/ElasticUtil.java:441-449 | Nothing is sent exactly when the lists do not line up, because the call throws. Otherwise one POST of the delete body to `host/_bulk`, classified. |
| Bulk.BulkLinesConcat | src/main/java/com/quickutil/platform/ElasticUtil.java:231 | The lines of two batches are the lines of the first followed by the lines of the second. |
| Bulk.RecordText | src/main/java/com/quickutil/platform/ElasticUtil.java:274 | The text one record adds is its action line and newline, then its source line and newline when it has one. |
| Bulk.PayloadSnoc | src/main/java/com/quickutil/platform/ElasticUtil.java:274 | Appending a record appends its lines to the body. |
| Bulk.PayloadsConcat | src/main/java/com/quickutil/platform/ElasticUtil.java:231 | The body of two batches is the body of the first followed by the body of the second. |
| Bulk.BulkLineCount | src/main/java/com/quickutil/platform/ElasticUtil.java:225 | A body has one action line per item, plus one document line per item that is not a delete. |
| Bulk.TwoLineLayout | src/main/java/com/quickutil/platform/ElasticUtil.java:225 | Without deletes, line 2k is item k's action and line 2k+1 its document. |
| Bulk.DeleteLayout | src/main/java/com/quickutil/platform/ElasticUtil.java:442-446 | A delete body has exactly one line per item, in order. |
| Bulk.TargetActionOneLine | src/main/java/com/quickutil/platform/ElasticUtil.java:269 | An action line built from newline-free arguments holds no newline. |
| Bulk.IdActionOneLine | src/main/java/com/quickutil/platform/ElasticUtil.java:308 | An id action built from newline-free arguments holds no newline. |
| Bulk.ActionLineOneLine | src/main/java/com/quickutil/platform/ElasticUtil.java:225 | The action line of an item whose caller strings hold no newline holds none. |
| Bulk.ItemLinesOneLine | src/main/java/com/quickutil/platform/ElasticUtil.java:225 | Every line of such an item holds no newline. |
| Bulk.BulkLinesOneLine | src/main/java/com/quickutil/platform/ElasticUtil.java:225 | Every line of such a batch holds no newline. |
| Bulk.PayloadSplitsIntoLines | src/main/java/com/quickutil/platform/ElasticUtil.java:225 | Splitting the body on newlines gives back exactly its lines, plus the empty tail after the final newline. |
| Bulk.DeleteItemsSnoc | src/main/java/com/quickutil/platform/ElasticUtil.java:444-446 | One more loop round adds the delete of the next target. |
| Bulk.DeleteItemsPrefix | src/main/java/com/quickutil/platform/ElasticUtil.java:444 | Only the first \|indices\| types and ids are read. |
| Bulk.UpsertFlagIsBatchWide | src/main/java/com/quickutil/platform/ElasticUtil.java:351-356 | Every update item of a batch carries `doc_as_upsert: true` exactly when the batch's flag is set. |
| Bulk.ScriptUpsertIsBatchWide | src/main/java/com/quickutil/platform/ElasticUtil.java:391-393 | Every scripted item carries its parameters as the `upsert` document exactly when the batch's flag is set. |
| Bulk.InsertPayloadLines | src/main/java/com/quickutil/platform/ElasticUtil.java:314-317 | N entries give 2N newline-terminated lines: entry k's id action, then its source. |
| Bulk.UpdatePayloadLines | src/main/java/com/quickutil/platform/ElasticUtil.java:350-358 | N entries give 2N lines: entry k's update action, then its serialized body. |
| Bulk.DeletePayloadLines | src/main/java/com/quickutil/platform/ElasticUtil.java:441-449 | N targets give N lines, line k naming `indices[k]`, `types[k]` and `ids[k]`. |
| Buffering.BufferedWriter.constructor | src/main/java/com/quickutil/platform/ElasticUtil.java:265-267 | An empty buffer, a last submission at time 0 and a zero counter. |
| Buffering.BufferedWriter.BulkInsertBuffer | src/main/java/com/quickutil/platform/ElasticUtil.java:271-297 | The record is always appended. When more than 1000 ms have passed since the last submission, the whole buffer with the record is posted to `host/_bulk` as one batch. The buffer then empties whatever the outcome, the clock reading is taken, and the result is whether the batch succeeded. Otherwise nothing is sent and the result is true. The invariant ties the buffer text to the buffered records and accounts for every record exactly once. |
| Buffering.BodiesOfFlatten | src/main/java/com/quickutil/platform/ElasticUtil.java:274-280 | Submitting records batch by batch sends the same text as submitting them all at once. |
| Buffering.NothingLostOrRepeated | src/main/java/com/quickutil/platform/ElasticUtil.java:274-280 | The submitted bodies followed by the buffer are the body of every record ever appended: none is lost and none is sent twice. |
| Buffering.SubmittedBatchLines | src/main/java/com/quickutil/platform/ElasticUtil.java:269-274 | A submitted batch is an index action line and a source line for each buffered record, in order. |
| Scroll.TypedSearchUrl | src/main/java/com/quickutil/platform/ElasticUtil.java:463 | Naming a type inserts one path segment between the index and the endpoint. |
| Scroll.ScrollUrlDeterminesId | src/main/java/com/quickutil/platform/ElasticUtil.java:577 | Equal scroll addresses name the same scroll id. |
| Scroll.SearchUrlExtendsIndexUrl | src/main/java/com/quickutil/platform/ElasticUtil.java:463 | `SearchUrl` is the index address `host/index/`, then the type segment when a type is named, then the endpoint. The same holds for the `_search` address (line 463), the `_msearch` address (line 489) and the first scroll address (line 554). |
| Scroll.ReadersOfScrollReply | src/main/java/com/quickutil/platform/ElasticUtil.java:704-726 | `HitsOf`, `HasTotal` and `ScrollIdOf` recover the page, the total and the scroll id of a scroll reply. A reply with only a page has no total and no scroll id. A reply without `hits`, or no parse at all, has no page. |
| Scroll.CsvLinesOfObjects | src/main/java/com/quickutil/platform/ElasticUtil.java:711-718 | `CsvLines` of a page of objects always succeeds. When the mapper gives a line for every hit, there are as many lines as hits and line m is the line of hit m. |
| Scroll.GetFirstScrollSearch | src/main/java/com/quickutil/platform/ElasticUtil.java:553-568 | One POST to the `_search?scroll=5m` address of the index, or of the index and type. It has no entity exactly when there is no query or the query is empty. The result is the reply text exactly on 200. |
| Scroll.GetScrollSearch | src/main/java/com/quickutil/platform/ElasticUtil.java:576-590 | One GET of the scroll address for the id. The result is the reply text exactly on 200. |
| Scroll.DumpToCsv | src/main/java/com/quickutil/platform/ElasticUtil.java:692-732 | The file text appended and the requests sent are those of the dump specification `Dump`, and the line count is the number of lines in its pages (`LineCount`). |
| Scroll.ScrollPages | src/main/java/com/quickutil/platform/ElasticUtil.java:709-728 | The page loop appends the file text and sends the requests of `DumpFrom` from the first page, and counts its lines. |
| Scroll.ScrollStep | src/main/java/com/quickutil/platform/ElasticUtil.java:710-726 | One round writes the page's CSV lines, or stops the dump when a hit is not an object. It then asks for the next page, and stops on a failed request or unreadable hits. What remains is `DumpFrom` of the next page. |
| Scroll.CsvChunk | src/main/java/com/quickutil/platform/ElasticUtil.java:710-718 | The hit loop yields the page's CSV lines, newline-terminated, and their number. Hits mapped to null are skipped, and the loop fails exactly when some hit is not an object. |
| Scroll.PageDone | src/main/java/com/quickutil/platform/ElasticUtil.java:720-722 | Writing a page and sending its request keeps the loop's progress toward the whole dump. |
| Scroll.AllDone | src/main/java/com/quickutil/platform/ElasticUtil.java:723-728 | With nothing left, the progress made is the whole dump. |
| Scroll.CsvLinesSnoc | src/main/java/com/quickutil/platform/ElasticUtil.java:711-718 | One more hit adds its CSV line, nothing if it maps to null, or failure if it is not an object. |
| Scroll.CsvLinesFailsOnward | src/main/java/com/quickutil/platform/ElasticUtil.java:712 | Once a hit fails the cast, the whole page fails. |
| Scroll.CsvLinesBound | src/main/java/com/quickutil/platform/ElasticUtil.java:711-718 | A page yields at most one line per hit, and only when every hit is an object. |
| Scroll.DumpStopsOnFailedFirstSearch | src/main/java/com/quickutil/platform/ElasticUtil.java:699-703 | A first search answered with anything but 200 ends the dump after that one request, with nothing written. |
| Scroll.DumpFromReusesScrollId | src/main/java/com/quickutil/platform/ElasticUtil.java:721-722 | Every scroll request asks for the same address. There is at most one more page written than scroll requests sent, and never fewer. |
| Scroll.DumpReusesFirstScrollId | src/main/java/com/quickutil/platform/ElasticUtil.java:704-722 | Every scroll request uses the scroll id of the first reply, never one from a later page. |
| Scroll.DumpFromStopsAtFirstEnd | src/main/java/com/quickutil/platform/ElasticUtil.java:709-726 | The loop sends no scroll request after the first reply that is not 200 or has no hits. |
| Scroll.DumpRequestBound | src/main/java/com/quickutil/platform/ElasticUtil.java:692-732 | A dump sends the first search and at most one scroll request per reply the server gives, plus one. |
| Scroll.DumpFromOfPages | src/main/java/com/quickutil/platform/ElasticUtil.java:709-728 | `DumpFrom`, from a loop head holding page k of a scroll that serves its pages and then an empty page, writes each remaining page's CSV lines. It sends one scroll request per remaining page. |
| Scroll.DumpOfPages | src/main/java/com/quickutil/platform/ElasticUtil.java:692-732 | `Dump` of a scroll whose first reply carries page 0, a total and a scroll id, and whose scroll replies serve the remaining pages and then an empty one, writes page i's CSV lines as its i-th chunk. It sends the first search and then exactly one scroll request per page, all for the first reply's scroll id. |
| Admin.GetIndexName | src/main/java/com/quickutil/platform/ElasticUtil.java:513-532 | One GET of `host/_cat/indices/<pattern>`. The result is null exactly when the status is not 200 or some line has no third column. Otherwise it is a new array of the third column of each line of the table. |
| Admin.ReadNames | src/main/java/com/quickutil/platform/ElasticUtil.java:520-527 | The loop fills a new array with each line's third column, or fails exactly when some line has fewer than three columns. |
| Admin.IndexNamesOfTable | src/main/java/com/quickutil/platform/ElasticUtil.java:520-527 | A table written one row per line, with single spaces between plain cells, yields exactly the third cell of every row. |
| Admin.TableSplitsIntoLines | src/main/java/com/quickutil/platform/ElasticUtil.java:520 | Such a table splits back into its lines. |
| Admin.TableLinesRead | src/main/java/com/quickutil/platform/ElasticUtil.java:524 | Each of its lines is one non-empty line that splits back into its row. |
| Admin.JoinAvoids | src/main/java/com/quickutil/platform/ElasticUtil.java:749 | A join of elements and a separator that avoid some characters avoids them too. |
| Admin.JoinStartsWithFirst | src/main/java/com/quickutil/platform/ElasticUtil.java:749 | A join begins with its first element. |
| Admin.JoinStringForMultiFields | src/main/java/com/quickutil/platform/ElasticUtil.java:745-750 | Every array element is quoted in place, and the result is the quoted names between brackets, comma-separated. |
| Admin.MultiFieldsReadBack | src/main/java/com/quickutil/platform/ElasticUtil.java:745-750 | The field list reads back: between its brackets, splitting on commas gives the quoted names. Each quoted name without its quotes is the original, provided no name holds a comma. |
| Admin.JoinORSubQuery | src/main/java/com/quickutil/platform/ElasticUtil.java:757-763 | Every element holding a space is quoted in place and the others are kept. The result is the terms between parentheses, separated by " OR ". |
| Admin.OrTermsQuoteSpaces | src/main/java/com/quickutil/platform/ElasticUtil.java:758-761 | Each term either holds no space and is the value unchanged, or it is a value with a space, between quotes. |
| Admin.S3Settings | src/main/java/com/quickutil/platform/ElasticUtil.java:775-779 | The loop copies exactly the allow-listed properties, in the list's order. |
| Admin.AllowedSettingsMember | src/main/java/com/quickutil/platform/ElasticUtil.java:765-779 | The settings hold a key exactly when it is allow-listed and defined by the properties, and then with the property's value. Nothing outside the list is passed on. |
| Admin.CreateS3Repository | src/main/java/com/quickutil/platform/ElasticUtil.java:774-797 | One PUT to `host/_snapshot/repo` whose body is the compact JSON `{"type":"s3","settings":{...}}` of the allowed settings. The result is true exactly on 200. |
| Admin.PutConfig | src/main/java/com/quickutil/platform/ElasticUtil.java:820-829 | One PUT of the compact text of the configuration. True exactly when a reply arrives, whatever its status. |
| Admin.CreateSnapshot | src/main/java/com/quickutil/platform/ElasticUtil.java:818-830 | One PUT of the configuration to `host/_snapshot/repo/snapshot`, with null names formatted as "null". True exactly when a reply arrives. |
| Admin.RestoreSnapshot | src/main/java/com/quickutil/platform/ElasticUtil.java:838-850 | One PUT of the configuration to the snapshot address followed by `/_restore`. True exactly when a reply arrives. |
| Admin.SnapshotCallsIgnoreStatus | src/main/java/com/quickutil/platform/ElasticUtil.java:824-825 | Against a server answering 500, both snapshot calls report success, while the repository check reports the repository missing. |
| Admin.SnapshotUrlUnderRepository | src/main/java/com/quickutil/platform/ElasticUtil.java:819 | A snapshot address is its repository address followed by `/` and the snapshot name. |
| Json.MemberIsLastBinding | src/main/java/com/quickutil/platform/ElasticUtil.java:242 | A member lookup finds a value exactly when some binding has the name, and then it is the last such binding. |
| Json.ParseLongOfIntToString | src/main/java/com/quickutil/platform/ElasticUtil.java:707 | `ParseLong` (`Long.parseLong`, as `getAsLong` applies it to a string) reads back every long that `IntToString` writes. `AsString` of a number is that decimal text, so the text of a number converts back to it. |
| Json.DigitsValueOfNatToString | src/main/java/com/quickutil/platform/ElasticUtil.java:707 | Reading the decimal digits of a natural number gives the number back. |
| Json.NegativeParsesBack | src/main/java/com/quickutil/platform/ElasticUtil.java:707 | A minus sign followed by the decimal digits of a magnitude parses as its negation when that fits in a long, and fails to parse otherwise. |
| Json.AsBooleanReadsBack | src/main/java/com/quickutil/platform/ElasticUtil.java:242 | `AsBoolean` (`getAsBoolean`) reads the string form of a boolean back as that boolean, directly or as a one-element array. `parseBoolean` ignores letter case and reads any other text as false. Null, an object and an empty array cannot be read. |
| Json.Serialize | src/main/java/com/quickutil/platform/ElasticUtil.java:357 | The compact text of an element (`toString`, as the bulk builders at lines 357 and 394 and the repository call at line 786 use it) holds no control character: every character is at least the space. |
| Json.SerializeIsOneLine | src/main/java/com/quickutil/platform/ElasticUtil.java:357 | A compactly serialized element holds no newline, so it fits on one line of a bulk body. |
| Text.PiecesOfFrame | src/main/java/com/quickutil/platform/ElasticUtil.java:225 | Splitting newline-terminated lines on newlines gives the lines back, plus an empty tail. |
| Text.PiecesOfJoin | src/main/java/com/quickutil/platform/ElasticUtil.java:749 | Splitting on a one-character separator undoes joining on it. |
| Text.RemoveSpacesConcat | src/main/java/com/quickutil/platform/ElasticUtil.java:166 | Removing spaces distributes over concatenation. |
| Text.RemoveSpacesIdempotent | src/main/java/com/quickutil/platform/ElasticUtil.java:166 | Removing spaces twice removes nothing more. |
| Text.SplitLinesOfFrame | src/main/java/com/quickutil/platform/ElasticUtil.java:520 | The `split("\\n")` of non-empty framed lines whose last line is not empty is exactly those lines. |
| Text.SplitFieldsOfJoin | src/main/java/com/quickutil/platform/ElasticUtil.java:524 | The `split("\\s+")` of non-empty, whitespace-free fields joined by single spaces is exactly those fields. |
| Text.PiecesAvoid | src/main/java/com/quickutil/platform/ElasticUtil.java:520-524 | No piece between separators holds a separator. |
| Text.JoinOfPieces | src/main/java/com/quickutil/platform/ElasticUtil.java:520 | Joining the pieces of a text with the one separator gives the text back. |
| Text.NonEmptyAvoids | src/main/java/com/quickutil/platform/ElasticUtil.java:524 | Dropping empty fields keeps only fields of the input. |
| Text.SplitLinesShape | src/main/java/com/quickutil/platform/ElasticUtil.java:520 | `SplitLines` (`split("\\n")`): the text is its newline-separated pieces joined by newlines. The lines are a prefix of those pieces, none holds a newline, and only empty pieces at the end are dropped. The last line of a non-empty text is not empty. |
| Text.SplitFieldsShape | src/main/java/com/quickutil/platform/ElasticUtil.java:524 | `SplitFields` (`split("\\s+")`): no field holds whitespace. The first field is the text before the first whitespace character, which is empty when the text starts with whitespace. Every later field is non-empty. |
| Text.NonEmptyHasNoEmpty | src/main/java/com/quickutil/platform/ElasticUtil.java:524 | Dropping empty fields leaves none and never lengthens the sequence. |
| Text.DropTrailingEmptyShape | src/main/java/com/quickutil/platform/ElasticUtil.java:520 | `split` drops exactly the trailing empty strings: the result is a prefix that does not end in one, and everything after it is empty. |

## Left out

- The connection pool, the request timeouts and the client construction (lines 53-58, 95-105) are not modelled. The retry loop that the HTTP library runs around the policy is not modelled either. An operation's server reply stands for the outcome after all retries.
- Logging, `printStackTrace`, the elapsed-time printouts of the bulk call and the progress printout of the dump are left out. They produce output only, so no result depends on them.
- `search` and `mSearch` are modelled through their URLs only (`Scroll.SearchUrl` with the endpoints `_search` and `_msearch`). `SearchRequest.toJson` is not part of this model, so the query text is a parameter, and neither call's result is more than the reply text on 200.
- `createIndex` and `getMapping` are not modelled. They send through `HttpUtil`, which is not part of this model.
- `jObjectMakeupJArray`, `stringMakeupJArray` and `getVersion` are not modelled. They are trivial wrappers with no contract of interest.
- The layout of bodies written by the project's JSON helper `JsonUtil` is not modelled. That helper is not part of this model, so a single-document insert or update body is a JSON value (`Http.Document`), not its text.
- Documents.Update: the order of the update body's two members comes from a `HashMap`, so the contract states each member by lookup and not their order.
- A bulk builder's map is taken as a sequence of entries in its iteration order, and that order is not modelled.
- The source reads the clock twice in `bulkInsertBuffer`. Buffering.BufferedWriter.BulkInsertBuffer takes one reading `now` for both.
- Buffering.BufferedWriter.BulkInsertBuffer: the `StringBuffer` is shared between threads and the method is not synchronised. The model is single-threaded.
- Buffering.BufferedWriter.BulkInsertBuffer: the exception path at lines 291-296 is not modelled. It depends on `BulkResponse.isSuccess` and `errorMessage`, which are not part of this model. If it is reached, it returns false, as the model's failed-batch branch does.
- Java `long` and `int` overflow is not modelled. Timestamps and counts are unbounded integers.
- Scroll.DumpToCsv: the file is given as the text appended to it. Creating the file, writing to disk and its failures are not modelled.
- Scroll.DumpToCsv: the server's replies to the scroll requests are a finite sequence, and a request past its end counts as getting no reply. A scroll that never ends is therefore not modelled.
- Scroll.DumpToCsv: the floating-point progress ratio is not modelled.
- `StringUtil.joinString` is not part of this model. `Admin.JoinString` follows its documented behaviour: prefix, the elements separated by the separator, then suffix.
- `Properties` values are modelled as strings, and only `containsKey`/`getProperty` on them are used.
- JSON parsing of a reply is an input: a reply carries its text and, when that text is an object, its parse. Parse errors appear as an absent parse.
- Documents.SelectById: a URL that `java.net.URI` rejects makes the request constructor throw before anything is sent. Such URLs hold a space, a double quote, `<`, `|`, `{` and the like. The source then returns null with no request sent; the model always records one request and reads its reply.
- Documents.CheckIndexExist: for a URL that `java.net.URI` rejects, the source returns false with no request sent. The model always sends one request.
- Documents.Insert: for a URL that `java.net.URI` rejects after its spaces are removed, the source returns false with no request sent. The model always sends one request. The same holds for Documents.Update.
- Documents.CheckRepositoryExist: for a URL that `java.net.URI` rejects, the exception escapes to the caller, since only `IOException` is caught. The model always sends one request and reads its status.
- Admin.GetIndexName: for a URL that `java.net.URI` rejects, the source returns null with no request sent. The model always sends one request.
- Admin.CreateS3Repository: the PUT is built outside the `try`, so a URL that `java.net.URI` rejects raises an exception to the caller. The model sends one request and returns false or true by its status. The same holds for Admin.CreateSnapshot and Admin.RestoreSnapshot, and a null configuration throws there as well.
- Bulk.Submit: for a bulk URL that `java.net.URI` rejects, the source returns a request failure with the empty object and sends nothing. The model always sends one request.
- Scroll.GetFirstScrollSearch: for a URL that `java.net.URI` rejects, the source returns null with no request sent. The model always sends one, and so does Scroll.Dump. The same holds for Scroll.GetScrollSearch with a scroll id that makes the URL invalid.
- Buffering.BufferedWriter.BulkInsertBuffer: a null index, type, id or source is written as "null" by the source. The model's parameters are strings and cannot be null. The same holds for the ids and sources of Bulk.BulkInsert and the list elements of Bulk.BulkDelete.
- Bulk.BulkUpdate: a null map key is written as "null" in the action line (line 357). The model's keys are strings and cannot be null. The same holds for Bulk.BulkUpdateByScript (line 394).
- Bulk.BulkUpdateByScript: a null `lang` or `scriptFile` is stored by `addProperty` as JSON null, so the item carries `"lang":null` or `"file":null` (lines 386-387). The model takes both as strings, and `Bulk.ScriptBody` always writes them as JSON strings.
- Http.PostRequest: request bodies are modelled as characters. The source sends the bytes of `getBytes()` in the JVM's default charset (lines 121, 786, 821 and 841), where a character that charset cannot encode becomes `?`. That encoding is not modelled, here or in Admin.CreateS3Repository and Admin.PutConfig.
- Json.Serialize: JSON numbers are unbounded integers (`JNum`). Fractions and exponents are not modelled.
- Json.ParseLong: only the ASCII digits `0`-`9` are read. `Long.parseLong` reads every Unicode decimal digit through `Character.digit`. So a first scroll reply whose `hits.total` is a string written in other decimal digits (such as "٣") ends the model's dump (Scroll.Dump, Scroll.DumpToCsv) with nothing written, where the source reads the total and dumps the pages (lines 707-728).
- Bulk.BulkInsert, Bulk.BulkUpdate, Bulk.BulkUpdateByScript, Bulk.BulkDelete, Admin.JoinStringForMultiFields, Admin.JoinORSubQuery and Admin.CreateS3Repository: the map, list, array and properties arguments, and the elements of JoinORSubQuery's array, are never null in the model. The source throws a `NullPointerException` out of the call for a null one (lines 315, 351, 384, 444-445, 746, 758-759 and 777).

=== FILE: admin.dfy ===
/**
  Index listing, query-fragment helpers and snapshot repositories: reading
  index names out of the `_cat/indices` table, quoting field names and
  query terms before joining them, and creating an S3 snapshot repository
  from an allow-listed subset of the caller's properties.
*/
module Admin {
  import opened Options
  import opened Text
  import opened Json
  import opened Http
  import opened Documents

  /** `host/_cat/indices/<pattern>`: the index table for a name pattern. */
  function CatIndicesUrl(host: string, pattern: Option<string>): string
  {
    host + "/_cat/indices/" + Show(pattern)
  }

  /** Every line of the table has at least three whitespace-separated columns. */
  predicate EveryLineNamed(lines: seq<string>)
  {
    forall i :: 0 <= i < |lines| ==> |SplitFields(lines[i])| >= 3
  }

  /** The third column of each line, in order; None when some line has fewer than three columns. */
  function ThirdColumns(lines: seq<string>): Option<seq<string>>
  {
    if EveryLineNamed(lines) then Some(seq(|lines|, i requires 0 <= i < |lines| => SplitFields(lines[i])[2]))
    else None
  }

  /** The index names in a `_cat/indices` table: the third column of each of its lines. */
  function IndexNames(table: string): Option<seq<string>>
  {
    ThirdColumns(SplitLines(table))
  }

  /**
    Lists the indices matching a pattern. Null on a status other than 200,
    on no reply, and when a line of the table lacks a name column.
  */
  method GetIndexName(host: string, pattern: Option<string>, server: Request -> Reply)
    returns (names: array?<string>, sent: seq<Request>)
    ensures sent == [GetRequest(CatIndicesUrl(host, pattern))]
    ensures names == null <==> !HasStatus(server(sent[0]), StatusOk) || IndexNames(server(sent[0]).text).None?
    ensures names != null ==> fresh(names) && names[..] == IndexNames(server(sent[0]).text).value
  {
    var request := GetRequest(CatIndicesUrl(host, pattern));
    sent := [request];
    var reply := server(request);
    if !HasStatus(reply, StatusOk) {
      return null, sent;
    }
    names := ReadNames(SplitLines(reply.text));
  }

  /** The name column of each line, into a new array; null as soon as a line has no third column. */
  method ReadNames(lines: seq<string>) returns (names: array?<string>)
    ensures names == null <==> ThirdColumns(lines).None?
    ensures names != null ==> fresh(names) && names[..] == ThirdColumns(lines).value
  {
    var found := new string[|lines|];
    for i := 0 to |lines|
      invariant forall j :: 0 <= j < i ==> |SplitFields(lines[j])| >= 3 && found[j] == SplitFields(lines[j])[2]
    {
      var columns := SplitFields(lines[i]);
      if |columns| < 3 {
        assert !EveryLineNamed(lines);
        return null;
      }
      found[i] := columns[2];
    }
    assert EveryLineNamed(lines);
    assert found[..] == ThirdColumns(lines).value;
    names := found;
  }

  /** The lines of a table written with single spaces between the columns of each row. */
  function TableLines(rows: seq<seq<string>>): seq<string>
  {
    seq(|rows|, i requires 0 <= i < |rows| => Join(rows[i], " "))
  }

  /** Table rows whose cells are non-empty and free of whitespace. */
  predicate PlainRows(rows: seq<seq<string>>)
  {
    forall i, k :: 0 <= i < |rows| && 0 <= k < |rows[i]| ==> rows[i][k] != "" && Avoids(rows[i][k], JavaWhitespace)
  }

  /**
    A table written one index per line, columns separated by single spaces,
    reads back as the third column of every row.
  */
  lemma IndexNamesOfTable(rows: seq<seq<string>>)
    requires |rows| >= 1
    requires forall i :: 0 <= i < |rows| ==> |rows[i]| >= 3
    requires PlainRows(rows)
    ensures IndexNames(Frame(TableLines(rows))) == Some(seq(|rows|, i requires 0 <= i < |rows| => rows[i][2]))
  {
    var lines := TableLines(rows);
    TableLinesRead(rows);
    TableSplitsIntoLines(rows);
    assert EveryLineNamed(lines);
    var names := ThirdColumns(lines).value;
    assert forall i :: 0 <= i < |rows| ==> names[i] == rows[i][2];
    assert names == seq(|rows|, i requires 0 <= i < |rows| => rows[i][2]);
  }

  /** Such a table splits back into its lines. */
  lemma TableSplitsIntoLines(rows: seq<seq<string>>)
    requires |rows| >= 1
    requires forall i :: 0 <= i < |rows| ==> |rows[i]| >= 1
    requires PlainRows(rows)
    ensures SplitLines(Frame(TableLines(rows))) == TableLines(rows)
  {
    TableLinesRead(rows);
    SplitLinesOfFrame(TableLines(rows));
  }

  /** Each line of such a table is one line, not empty, and splits back into its row. */
  lemma TableLinesRead(rows: seq<seq<string>>)
    requires forall i :: 0 <= i < |rows| ==> |rows[i]| >= 1
    requires PlainRows(rows)
    ensures forall i :: 0 <= i < |rows| ==>
              TableLines(rows)[i] != "" && Avoids(TableLines(rows)[i], {'\n'}) && SplitFields(TableLines(rows)[i]) == rows[i]
  {
    forall i | 0 <= i < |rows|
      ensures TableLines(rows)[i] != "" && Avoids(TableLines(rows)[i], {'\n'}) && SplitFields(TableLines(rows)[i]) == rows[i]
    {
      SplitFieldsOfJoin(rows[i]);
      JoinAvoids(rows[i], " ", {'\n'});
      JoinStartsWithFirst(rows[i], " ");
    }
  }

  /** A join of elements and a separator free of `cs` is free of `cs`. */
  lemma {:induction false} JoinAvoids(xs: seq<string>, sep: string, cs: set<char>)
    requires Avoids(sep, cs)
    requires forall k :: 0 <= k < |xs| ==> Avoids(xs[k], cs)
    ensures Avoids(Join(xs, sep), cs)
  {
    if |xs| > 1 {
      JoinAvoids(xs[1..], sep, cs);
      AvoidsConcat(xs[0], sep, cs);
      AvoidsConcat(xs[0] + sep, Join(xs[1..], sep), cs);
    }
  }

  /** A join begins with its first element. */
  lemma JoinStartsWithFirst(xs: seq<string>, sep: string)
    requires |xs| >= 1
    ensures |Join(xs, sep)| >= |xs[0]| && Join(xs, sep)[..|xs[0]|] == xs[0]
  {
  }

  /** `s` between double quotes. */
  function WrapInQuotes(s: string): string
  {
    "\"" + s + "\""
  }

  /** `prefix`, the elements with `sep` between neighbours, then `suffix`. */
  function JoinString(xs: seq<string>, sep: string, prefix: string, suffix: string): string
  {
    prefix + Join(xs, sep) + suffix
  }

  /** Every element quoted. */
  function QuoteAll(xs: seq<string>): seq<string>
  {
    seq(|xs|, i requires 0 <= i < |xs| => WrapInQuotes(xs[i]))
  }

  /** A term of an OR sub-query: quoted when it holds a space, so it reads as one phrase. */
  function OrTerm(s: string): string
  {
    if ' ' in s then WrapInQuotes(s) else s
  }

  function OrTerms(xs: seq<string>): seq<string>
  {
    seq(|xs|, i requires 0 <= i < |xs| => OrTerm(xs[i]))
  }

  /**
    Quotes every field name in the caller's array, in place, and returns
    the JSON-style list `["a","b"]`.
  */
  method JoinStringForMultiFields(names: array<string>) returns (r: string)
    modifies names
    ensures names[..] == QuoteAll(old(names[..]))
    ensures r == JoinString(names[..], ",", "[", "]")
  {
    for i := 0 to names.Length
      invariant names[..i] == QuoteAll(old(names[..]))[..i]
      invariant names[i..] == old(names[i..])
    {
      names[i] := WrapInQuotes(names[i]);
      assert names[..i + 1] == names[..i] + [names[i]];
      assert names[i + 1..] == old(names[i + 1..]);
    }
    assert names[..] == names[..names.Length];
    r := JoinString(names[..], ",", "[", "]");
  }

  /**
    Quotes, in the caller's array, every value holding a space, and returns
    the values as a parenthesised OR sub-query `(a OR "b c")`.
  */
  method JoinORSubQuery(values: array<string>) returns (r: string)
    modifies values
    ensures values[..] == OrTerms(old(values[..]))
    ensures r == JoinString(values[..], " OR ", "(", ")")
  {
    for i := 0 to values.Length
      invariant values[..i] == OrTerms(old(values[..]))[..i]
      invariant values[i..] == old(values[i..])
    {
      ghost var rest := values[i + 1..];
      assert rest == old(values[i..])[1..];
      if ' ' in values[i] {
        values[i] := WrapInQuotes(values[i]);
      }
      assert values[..i + 1] == values[..i] + [values[i]];
      assert values[i + 1..] == rest;
    }
    assert values[..] == values[..values.Length];
    r := JoinString(values[..], " OR ", "(", ")");
  }

  /**
    The field list reads back: between its brackets, splitting on commas
    gives the quoted names, and each name is its quoted form without the
    quotes, provided no name holds a comma.
  */
  lemma MultiFieldsReadBack(xs: seq<string>)
    requires |xs| >= 1
    requires forall k :: 0 <= k < |xs| ==> Avoids(xs[k], {','})
    ensures var t := JoinString(QuoteAll(xs), ",", "[", "]");
            && t[0] == '[' && t[|t| - 1] == ']'
            && Pieces(t[1..|t| - 1], {','}) == QuoteAll(xs)
            && forall k :: 0 <= k < |xs| ==> |QuoteAll(xs)[k]| >= 2 && QuoteAll(xs)[k][1..|QuoteAll(xs)[k]| - 1] == xs[k]
  {
    var quoted := QuoteAll(xs);
    forall k | 0 <= k < |quoted| ensures Avoids(quoted[k], {','}) {
      AvoidsConcat("\"", xs[k], {','});
      AvoidsConcat("\"" + xs[k], "\"", {','});
    }
    PiecesOfJoin(quoted, ',', {','});
    var t := JoinString(quoted, ",", "[", "]");
    assert t[1..|t| - 1] == Join(quoted, ",");
  }

  /**
    An OR term holds no space outside its quotes: either it has no space
    at all and is the value unchanged, or it is the value between quotes.
  */
  lemma OrTermsQuoteSpaces(xs: seq<string>)
    ensures |OrTerms(xs)| == |xs|
    ensures forall k :: 0 <= k < |xs| ==>
              var t := OrTerms(xs)[k];
              || (Avoids(t, {' '}) && t == xs[k])
              || (' ' in xs[k] && |t| == |xs[k]| + 2 && t[0] == '"' && t[|t| - 1] == '"' && t[1..|t| - 1] == xs[k])
  {
    forall k | 0 <= k < |xs| && ' ' !in xs[k] ensures Avoids(xs[k], {' '}) {
      forall i | 0 <= i < |xs[k]| ensures xs[k][i] != ' ' {
        assert xs[k][i] in xs[k];
      }
    }
  }

  /** The repository settings the client passes on, in this order. */
  const S3Keys: seq<string> := ["bucket", "region", "endpoint", "access_key", "secret_key"]

  /** The settings object: each of `keys`, in order, that the properties define, with its value. */
  function AllowedSettings(keys: seq<string>, properties: map<string, string>): Fields
  {
    if keys == [] then []
    else
      var key := keys[|keys| - 1];
      AllowedSettings(keys[..|keys| - 1], properties) + (if key in properties then [(key, JStr(properties[key]))] else [])
  }

  /** Copies the allow-listed properties into the settings object, one key at a time. */
  method S3Settings(properties: map<string, string>) returns (settings: Fields)
    ensures settings == AllowedSettings(S3Keys, properties)
  {
    settings := [];
    for i := 0 to |S3Keys|
      invariant settings == AllowedSettings(S3Keys[..i], properties)
    {
      var key := S3Keys[i];
      assert S3Keys[..i + 1][..i] == S3Keys[..i];
      if key in properties {
        settings := settings + [(key, JStr(properties[key]))];
      } else {
        assert settings + [] == settings;
      }
    }
    assert S3Keys[..|S3Keys|] == S3Keys;
  }

  /**
    The settings hold a key exactly when it is allow-listed and the
    properties define it, and then with the property's value: nothing
    outside the list is passed on.
  */
  lemma {:induction false} AllowedSettingsMember(keys: seq<string>, properties: map<string, string>, key: string)
    ensures Member(AllowedSettings(keys, properties), key) ==
            if key in keys && key in properties then Some(JStr(properties[key])) else None
  {
    if keys != [] {
      var prefix := keys[..|keys| - 1];
      var last := keys[|keys| - 1];
      assert keys == prefix + [last];
      var before := AllowedSettings(prefix, properties);
      AllowedSettingsMember(prefix, properties, key);
      if last in properties {
        var fields := before + [(last, JStr(properties[last]))];
        assert fields[..|fields| - 1] == before;
      } else {
        assert before + [] == before;
      }
    }
  }

  /** The body of a repository creation: type "s3" and the settings object. */
  function RepositoryBody(settings: Fields): Json
  {
    JObj([("type", JStr("s3")), ("settings", JObj(settings))])
  }

  /**
    Creates an S3 snapshot repository with a PUT of its compact JSON body to
    the repository address. True exactly on status 200.
  */
  method CreateS3Repository(host: string, repo: Option<string>, properties: map<string, string>,
                            server: Request -> Reply)
    returns (ok: bool, sent: seq<Request>)
    ensures sent == [Request(Put, RepositoryUrl(host, repo), Text(Serialize(RepositoryBody(AllowedSettings(S3Keys, properties)))))]
    ensures ok <==> HasStatus(server(sent[0]), StatusOk)
  {
    var settings := S3Settings(properties);
    var request := Request(Put, RepositoryUrl(host, repo), Text(Serialize(RepositoryBody(settings))));
    sent := [request];
    ok := HasStatus(server(request), StatusOk);
  }

  /** `host/_snapshot/repo/snapshot`: the address of one snapshot. */
  function SnapshotUrl(host: string, repo: Option<string>, snapshot: Option<string>): string
  {
    RepositoryUrl(host, repo) + "/" + Show(snapshot)
  }

  /** A PUT of the compact text of `config`; true for any reply, whatever its status. */
  function PutConfig(url: string, config: Fields, server: Request -> Reply): (x: Exchange<bool>)
    ensures x.sent == [Request(Put, url, Text(Serialize(JObj(config))))]
    ensures x.value <==> server(x.sent[0]).Response?
  {
    var request := Request(Put, url, Text(Serialize(JObj(config))));
    Exchange(server(request).Response?, [request])
  }

  /** Takes a snapshot into a repository. True whenever a reply arrives, error statuses included. */
  function CreateSnapshot(host: string, repo: Option<string>, snapshot: Option<string>, config: Fields,
                          server: Request -> Reply): (x: Exchange<bool>)
    ensures x.sent == [Request(Put, SnapshotUrl(host, repo, snapshot), Text(Serialize(JObj(config))))]
    ensures x.value <==> server(x.sent[0]).Response?
  {
    PutConfig(SnapshotUrl(host, repo, snapshot), config, server)
  }

  /** Restores a snapshot, at the snapshot address followed by `/_restore`; true whenever a reply arrives. */
  function RestoreSnapshot(host: string, repo: Option<string>, snapshot: Option<string>, config: Fields,
                           server: Request -> Reply): (x: Exchange<bool>)
    ensures x.sent == [Request(Put, SnapshotUrl(host, repo, snapshot) + "/_restore", Text(Serialize(JObj(config))))]
    ensures x.value <==> server(x.sent[0]).Response?
  {
    PutConfig(SnapshotUrl(host, repo, snapshot) + "/_restore", config, server)
  }

  /**
    The snapshot calls report success on a reply that the repository check
    reads as failure: against a server answering 500 to everything, both
    snapshot calls return true while the repository is reported missing.
  */
  lemma SnapshotCallsIgnoreStatus(host: string, repo: Option<string>, snapshot: Option<string>, config: Fields,
                                  server: Request -> Reply)
    requires forall r: Request :: server(r).Response? && server(r).status == 500
    ensures CreateSnapshot(host, repo, snapshot, config, server).value
    ensures RestoreSnapshot(host, repo, snapshot, config, server).value
    ensures !CheckRepositoryExist(host, repo, server).value
  {
  }

  /** A snapshot address lies under its repository address. */
  lemma SnapshotUrlUnderRepository(host: string, repo: Option<string>, snapshot: string)
    ensures |SnapshotUrl(host, repo, Some(snapshot))| > |RepositoryUrl(host, repo)|
    ensures SnapshotUrl(host, repo, Some(snapshot))[..|RepositoryUrl(host, repo)|] == RepositoryUrl(host, repo)
    ensures SnapshotUrl(host, repo, Some(snapshot))[|RepositoryUrl(host, repo)|..] == "/" + snapshot
  {
  }
}

=== FILE: buffered_writer.dfy ===
/**
  The buffered bulk writer: records accumulate in a text buffer and the
  whole buffer is submitted to `/_bulk` by the first call that arrives more
  than a second after the previous submission. The clock is a parameter.
*/
module Buffering {
  import opened Text
  import opened Http
  import opened Bulk

  /** The batches in submission order, one after another. */
  function Flatten(batches: seq<seq<BulkItem>>): seq<BulkItem>
  {
    if batches == [] then [] else Flatten(batches[..|batches| - 1]) + batches[|batches| - 1]
  }

  /** Milliseconds that must pass after a submission before the next one. */
  const FlushInterval := 1000

  class BufferedWriter {
    const host: string
    /** When the buffer was last submitted, in milliseconds. */
    var lasttime: int
    /** The records appended since then, as bulk body text. */
    var sb: string
    /** A counter that is printed but never advanced. */
    var count: int

    /** The records in `sb`, in append order. */
    ghost var pending: seq<BulkItem>
    /** Every batch submitted so far, in order. */
    ghost var flushed: seq<seq<BulkItem>>
    /** Every record ever appended, in order. */
    ghost var appended: seq<BulkItem>

    /**
      The buffer holds exactly the pending records, each an index action with
      its source, and every appended record is either in a submitted batch or
      pending, in order, exactly once.
    */
    ghost predicate Valid()
      reads this
    {
      && sb == Payload(pending)
      && (forall k :: 0 <= k < |pending| ==> pending[k].IndexInto?)
      && Flatten(flushed) + pending == appended
    }

    constructor(host: string)
      ensures Valid()
      ensures this.host == host && lasttime == 0 && sb == "" && count == 0
      ensures pending == [] && flushed == [] && appended == []
    {
      this.host := host;
      lasttime := 0;
      sb := "";
      count := 0;
      pending := [];
      flushed := [];
      appended := [];
    }

    /**
      Appends one record; when more than `FlushInterval` milliseconds have
      passed since the last submission, submits the whole buffer and empties
      it whatever the outcome. Reports true when nothing was submitted.
    */
    method BulkInsertBuffer(index: string, docType: string, id: string, source: string, now: int,
                            server: Request -> Reply)
      returns (ok: bool, sent: seq<Request>)
      requires Valid()
      modifies this
      ensures Valid()
      ensures count == old(count)
      ensures appended == old(appended) + [IndexInto(index, docType, id, source)]
      ensures now - old(lasttime) > FlushInterval ==>
                var batch := old(pending) + [IndexInto(index, docType, id, source)];
                && sent == [BulkRequest(host + "/_bulk", Payload(batch))]
                && ok == Classify(server(sent[0])).Success?
                && lasttime == now && sb == "" && pending == []
                && flushed == old(flushed) + [batch]
      ensures now - old(lasttime) <= FlushInterval ==>
                && sent == [] && ok
                && lasttime == old(lasttime)
                && pending == old(pending) + [IndexInto(index, docType, id, source)]
                && sb == old(sb) + Frame(ItemLines(IndexInto(index, docType, id, source)))
                && flushed == old(flushed)
    {
      var item := IndexInto(index, docType, id, source);
      var record := TargetAction("index", index, docType, id) + "\n" + source + "\n";
      RecordText(item);
      PayloadSnoc(pending, item);
      sb := sb + record;
      pending := pending + [item];
      appended := appended + [item];
      if now - lasttime > FlushInterval {
        var entity := sb;
        lasttime := now;
        sb := "";
        flushed := flushed + [pending];
        pending := [];
        var x := Submit(host + "/_bulk", entity, server);
        ok := x.value.Success?;
        sent := x.sent;
      } else {
        ok := true;
        sent := [];
      }
    }
  }

  /** The bodies of the batches, one after another, in submission order. */
  function Bodies(batches: seq<seq<BulkItem>>): string
  {
    if batches == [] then "" else Bodies(batches[..|batches| - 1]) + Payload(batches[|batches| - 1])
  }

  /** Submitting records batch by batch sends the same text as submitting them all at once. */
  lemma {:induction false} BodiesOfFlatten(batches: seq<seq<BulkItem>>)
    ensures Bodies(batches) == Payload(Flatten(batches))
  {
    if batches != [] {
      var init := batches[..|batches| - 1];
      BodiesOfFlatten(init);
      PayloadsConcat(Flatten(init), batches[|batches| - 1]);
    }
  }

  /**
    Of the text of every record ever appended, each part has either been
    sent in a submitted batch or is still in the buffer: none is lost and
    none is sent twice.
  */
  lemma NothingLostOrRepeated(flushed: seq<seq<BulkItem>>, pending: seq<BulkItem>, appended: seq<BulkItem>)
    requires Flatten(flushed) + pending == appended
    ensures Bodies(flushed) + Payload(pending) == Payload(appended)
  {
    BodiesOfFlatten(flushed);
    PayloadsConcat(Flatten(flushed), pending);
  }

  /** A submitted batch lays out as action/source line pairs, one pair per buffered record. */
  lemma SubmittedBatchLines(batch: seq<BulkItem>)
    requires forall k :: 0 <= k < |batch| ==> batch[k].IndexInto? && CallerStringsOneLine(batch[k])
    ensures Pieces(Payload(batch), {'\n'}) == BulkLines(batch) + [""]
    ensures |BulkLines(batch)| == 2 * |batch|
    ensures forall k :: 0 <= k < |batch| ==>
              BulkLines(batch)[2 * k] == TargetAction("index", batch[k].index, batch[k].docType, batch[k].id) &&
              BulkLines(batch)[2 * k + 1] == batch[k].source
  {
    PayloadSplitsIntoLines(batch);
    TwoLineLayout(batch);
  }
}

=== FILE: bulk.dfy ===
/**
  The bulk engine: newline-delimited payloads of action lines and document
  lines, the builders that write them for one index and type, and the
  classification of the bulk endpoint's reply into success, partial failure
  or request failure.
*/
module Bulk {
  import opened Options
  import opened Text
  import opened Json
  import opened Http

  /** One action of a bulk request, as each builder writes it. */
  datatype BulkItem =
    | IndexById(id: string, source: string)                                   // bulk insert into the URL's index and type
    | IndexInto(index: string, docType: string, id: string, source: string)   // a buffered insert, naming its own target
    | UpdateDoc(id: string, doc: Json, upsert: bool)                          // partial update with a document
    | UpdateByScript(id: string, params: Json, lang: string, file: string, upsert: bool)
    | Delete(index: string, docType: string, id: string)

  /** An action line naming only a document id: `{"<verb>": {"_id": "<id>"}}`. */
  function IdAction(verb: string, id: string): string
  {
    "{\"" + verb + "\": {\"_id\": \"" + id + "\"}}"
  }

  /** An action line naming index, type and id: `{"<verb>":{"_index":"<index>","_type":"<type>","_id":"<id>"}}`. */
  function TargetAction(verb: string, index: string, docType: string, id: string): string
  {
    "{\"" + verb + "\":{\"_index\":\"" + index + "\",\"_type\":\"" + docType + "\",\"_id\":\"" + id + "\"}}"
  }

  function UpdateAction(id: string): string
  {
    IdAction("update", id)
  }

  /** The action-and-metadata line of an item. Caller strings are inserted verbatim, without escaping. */
  function ActionLine(item: BulkItem): string
  {
    match item
    case IndexById(id, _) => IdAction("index", id)
    case IndexInto(index, docType, id, _) => TargetAction("index", index, docType, id)
    case UpdateDoc(id, _, _) => UpdateAction(id)
    case UpdateByScript(id, _, _, _, _) => UpdateAction(id)
    case Delete(index, docType, id) => TargetAction("delete", index, docType, id)
  }

  /** The body of a document update; the upsert flag adds `doc_as_upsert`. */
  function UpdateBody(doc: Json, upsert: bool): Json
  {
    JObj([("doc", doc)] + (if upsert then [("doc_as_upsert", JBool(true))] else []))
  }

  /** The body of a scripted update; the upsert flag adds the parameters as the `upsert` document. */
  function ScriptBody(params: Json, lang: string, file: string, upsert: bool): Json
  {
    var script := JObj([("lang", JStr(lang)), ("file", JStr(file)), ("params", params)]);
    JObj([("script", script)] + (if upsert then [("upsert", params)] else []))
  }

  /** The line after the action line, if the action has one (a delete has none). */
  function SourceLine(item: BulkItem): Option<string>
  {
    match item
    case IndexById(_, source) => Some(source)
    case IndexInto(_, _, _, source) => Some(source)
    case UpdateDoc(_, doc, upsert) => Some(Serialize(UpdateBody(doc, upsert)))
    case UpdateByScript(_, params, lang, file, upsert) => Some(Serialize(ScriptBody(params, lang, file, upsert)))
    case Delete(_, _, _) => None
  }

  function ItemLines(item: BulkItem): seq<string>
  {
    [ActionLine(item)] + (if SourceLine(item).Some? then [SourceLine(item).value] else [])
  }

  /** The lines of a bulk body, item after item. */
  function BulkLines(items: seq<BulkItem>): seq<string>
  {
    if items == [] then [] else ItemLines(items[0]) + BulkLines(items[1..])
  }

  /** The bulk request body: every line newline-terminated. */
  function Payload(items: seq<BulkItem>): string
  {
    Frame(BulkLines(items))
  }

  lemma {:induction false} BulkLinesConcat(a: seq<BulkItem>, b: seq<BulkItem>)
    ensures BulkLines(a + b) == BulkLines(a) + BulkLines(b)
  {
    if a == [] {
      assert a + b == b;
    } else {
      assert (a + b)[1..] == a[1..] + b;
      BulkLinesConcat(a[1..], b);
    }
  }

  /** The text one item adds to a bulk body: its action line, then its source line if it has one. */
  lemma RecordText(item: BulkItem)
    ensures SourceLine(item).Some? ==> Frame(ItemLines(item)) == ActionLine(item) + "\n" + SourceLine(item).value + "\n"
    ensures SourceLine(item).None? ==> Frame(ItemLines(item)) == ActionLine(item) + "\n"
  {
    if SourceLine(item).Some? {
      FrameOfTwo(ActionLine(item), SourceLine(item).value);
    } else {
      assert Frame([ActionLine(item)]) == ActionLine(item) + "\n" + Frame([]);
    }
  }

  /** Appending an item appends its lines to the body. */
  lemma PayloadSnoc(items: seq<BulkItem>, item: BulkItem)
    ensures Payload(items + [item]) == Payload(items) + Frame(ItemLines(item))
  {
    BulkLinesConcat(items, [item]);
    assert BulkLines([item]) == ItemLines(item);
    FrameConcat(BulkLines(items), ItemLines(item));
  }

  /** The body of two batches is the body of the first followed by the body of the second. */
  lemma PayloadsConcat(a: seq<BulkItem>, b: seq<BulkItem>)
    ensures Payload(a + b) == Payload(a) + Payload(b)
  {
    BulkLinesConcat(a, b);
    FrameConcat(BulkLines(a), BulkLines(b));
  }

  /** How many items carry a document line. */
  function WithSource(items: seq<BulkItem>): nat
  {
    if items == [] then 0 else (if SourceLine(items[0]).Some? then 1 else 0) + WithSource(items[1..])
  }

  /** One action line per item plus one document line per item that is not a delete. */
  lemma {:induction false} BulkLineCount(items: seq<BulkItem>)
    ensures |BulkLines(items)| == |items| + WithSource(items)
    ensures WithSource(items) <= |items|
  {
    if items != [] {
      BulkLineCount(items[1..]);
    }
  }

  /** Builders that give every item a document line lay the body out as action, document, action, document, ... */
  lemma {:induction false} TwoLineLayout(items: seq<BulkItem>)
    requires forall k :: 0 <= k < |items| ==> !items[k].Delete?
    ensures |BulkLines(items)| == 2 * |items|
    ensures forall k :: 0 <= k < |items| ==>
              BulkLines(items)[2 * k] == ActionLine(items[k]) &&
              BulkLines(items)[2 * k + 1] == SourceLine(items[k]).value
  {
    if items != [] {
      var rest := items[1..];
      TwoLineLayout(rest);
      var lines := BulkLines(items);
      assert lines == [ActionLine(items[0]), SourceLine(items[0]).value] + BulkLines(rest);
      forall k | 1 <= k < |items|
        ensures lines[2 * k] == ActionLine(items[k]) && lines[2 * k + 1] == SourceLine(items[k]).value
      {
        assert rest[k - 1] == items[k];
        assert lines[2 * k] == BulkLines(rest)[2 * (k - 1)];
        assert lines[2 * k + 1] == BulkLines(rest)[2 * (k - 1) + 1];
      }
    }
  }

  /** A body of deletes has exactly one line per item, in order. */
  lemma {:induction false} DeleteLayout(items: seq<BulkItem>)
    requires forall k :: 0 <= k < |items| ==> items[k].Delete?
    ensures |BulkLines(items)| == |items|
    ensures forall k :: 0 <= k < |items| ==> BulkLines(items)[k] == ActionLine(items[k])
  {
    if items != [] {
      var rest := items[1..];
      DeleteLayout(rest);
      forall k | 1 <= k < |items|
        ensures BulkLines(items)[k] == ActionLine(items[k])
      {
        assert rest[k - 1] == items[k];
      }
    }
  }

  /** The strings a caller passes in that are copied into the body verbatim contain no newline. */
  predicate CallerStringsOneLine(item: BulkItem)
  {
    match item
    case IndexById(id, source) => Avoids(id, {'\n'}) && Avoids(source, {'\n'})
    case IndexInto(index, docType, id, source) =>
      Avoids(index, {'\n'}) && Avoids(docType, {'\n'}) && Avoids(id, {'\n'}) && Avoids(source, {'\n'})
    case UpdateDoc(id, _, _) => Avoids(id, {'\n'})
    case UpdateByScript(id, _, _, _, _) => Avoids(id, {'\n'})
    case Delete(index, docType, id) => Avoids(index, {'\n'}) && Avoids(docType, {'\n'}) && Avoids(id, {'\n'})
  }

  lemma TargetActionOneLine(verb: string, index: string, docType: string, id: string)
    requires Avoids(verb, {'\n'}) && Avoids(index, {'\n'}) && Avoids(docType, {'\n'}) && Avoids(id, {'\n'})
    ensures Avoids(TargetAction(verb, index, docType, id), {'\n'})
  {
    var nl := {'\n'};
    var s0 := "{\"" + verb;
    AvoidsConcat("{\"", verb, nl);
    var s1 := s0 + "\":{\"_index\":\"";
    AvoidsConcat(s0, "\":{\"_index\":\"", nl);
    AvoidsConcat(s1, index, nl);
    var s2 := s1 + index + "\",\"_type\":\"";
    AvoidsConcat(s1 + index, "\",\"_type\":\"", nl);
    AvoidsConcat(s2, docType, nl);
    var s3 := s2 + docType + "\",\"_id\":\"";
    AvoidsConcat(s2 + docType, "\",\"_id\":\"", nl);
    AvoidsConcat(s3, id, nl);
    AvoidsConcat(s3 + id, "\"}}", nl);
  }

  lemma IdActionOneLine(verb: string, id: string)
    requires Avoids(verb, {'\n'}) && Avoids(id, {'\n'})
    ensures Avoids(IdAction(verb, id), {'\n'})
  {
    var nl := {'\n'};
    var s0 := "{\"" + verb;
    AvoidsConcat("{\"", verb, nl);
    var s1 := s0 + "\": {\"_id\": \"";
    AvoidsConcat(s0, "\": {\"_id\": \"", nl);
    AvoidsConcat(s1, id, nl);
    AvoidsConcat(s1 + id, "\"}}", nl);
  }

  lemma ActionLineOneLine(item: BulkItem)
    requires CallerStringsOneLine(item)
    ensures Avoids(ActionLine(item), {'\n'})
  {
    match item
    case IndexById(id, _) => IdActionOneLine("index", id);
    case IndexInto(index, docType, id, _) => TargetActionOneLine("index", index, docType, id);
    case UpdateDoc(id, _, _) => IdActionOneLine("update", id);
    case UpdateByScript(id, _, _, _, _) => IdActionOneLine("update", id);
    case Delete(index, docType, id) => TargetActionOneLine("delete", index, docType, id);
  }

  lemma ItemLinesOneLine(item: BulkItem)
    requires CallerStringsOneLine(item)
    ensures forall k :: 0 <= k < |ItemLines(item)| ==> Avoids(ItemLines(item)[k], {'\n'})
  {
    ActionLineOneLine(item);
    match item
    case UpdateDoc(_, doc, upsert) => SerializeIsOneLine(UpdateBody(doc, upsert));
    case UpdateByScript(_, params, lang, file, upsert) => SerializeIsOneLine(ScriptBody(params, lang, file, upsert));
    case _ =>
  }

  lemma {:induction false} BulkLinesOneLine(items: seq<BulkItem>)
    requires forall k :: 0 <= k < |items| ==> CallerStringsOneLine(items[k])
    ensures forall k :: 0 <= k < |BulkLines(items)| ==> Avoids(BulkLines(items)[k], {'\n'})
  {
    if items != [] {
      ItemLinesOneLine(items[0]);
      BulkLinesOneLine(items[1..]);
    }
  }

  /**
    Read back on the server, the body splits into exactly the builder's
    lines, in order, each terminated by a newline.
  */
  lemma PayloadSplitsIntoLines(items: seq<BulkItem>)
    requires forall k :: 0 <= k < |items| ==> CallerStringsOneLine(items[k])
    ensures Pieces(Payload(items), {'\n'}) == BulkLines(items) + [""]
  {
    BulkLinesOneLine(items);
    PiecesOfFrame(BulkLines(items));
  }

  // ---------------------------------------------------------------------
  // Builders

  /** The items of a bulk insert, one per (id, source) entry in iteration order. */
  function InsertItems(source: seq<(string, string)>): seq<BulkItem>
  {
    seq(|source|, k requires 0 <= k < |source| => IndexById(source[k].0, source[k].1))
  }

  function UpdateItems(source: seq<(string, Json)>, upsert: bool): seq<BulkItem>
  {
    seq(|source|, k requires 0 <= k < |source| => UpdateDoc(source[k].0, source[k].1, upsert))
  }

  function ScriptItems(source: seq<(string, Json)>, file: string, lang: string, upsert: bool): seq<BulkItem>
  {
    seq(|source|, k requires 0 <= k < |source| => UpdateByScript(source[k].0, source[k].1, lang, file, upsert))
  }

  function DeleteItems(indices: seq<string>, types: seq<string>, ids: seq<string>): seq<BulkItem>
    requires |types| >= |indices| && |ids| >= |indices|
  {
    seq(|indices|, k requires 0 <= k < |indices| => Delete(indices[k], types[k], ids[k]))
  }

  method BuildInsertPayload(source: seq<(string, string)>) returns (entity: string)
    ensures entity == Payload(InsertItems(source))
  {
    ghost var items := InsertItems(source);
    entity := "";
    for i := 0 to |source|
      invariant entity == Payload(items[..i])
    {
      var (id, value) := source[i];
      var record := IdAction("index", id) + "\n" + value + "\n";
      assert items[i] == IndexById(id, value);
      RecordText(items[i]);
      PayloadSnoc(items[..i], items[i]);
      assert items[..i + 1] == items[..i] + [items[i]];
      entity := entity + record;
    }
    assert items[..|source|] == items;
  }

  method BuildUpdatePayload(source: seq<(string, Json)>, upsert: bool) returns (entity: string)
    ensures entity == Payload(UpdateItems(source, upsert))
  {
    ghost var items := UpdateItems(source, upsert);
    entity := "";
    for i := 0 to |source|
      invariant entity == Payload(items[..i])
    {
      var (id, doc) := source[i];
      var item := JObj([("doc", doc)]);
      if upsert {
        item := JObj(item.fields + [("doc_as_upsert", JBool(true))]);
      }
      var record := UpdateAction(id) + "\n" + Serialize(item) + "\n";
      assert items[i] == UpdateDoc(id, doc, upsert) && item == UpdateBody(doc, upsert);
      RecordText(items[i]);
      PayloadSnoc(items[..i], items[i]);
      assert items[..i + 1] == items[..i] + [items[i]];
      entity := entity + record;
    }
    assert items[..|source|] == items;
  }

  method BuildScriptPayload(source: seq<(string, Json)>, file: string, lang: string, upsert: bool)
    returns (entity: string)
    ensures entity == Payload(ScriptItems(source, file, lang, upsert))
  {
    ghost var items := ScriptItems(source, file, lang, upsert);
    entity := "";
    for i := 0 to |source|
      invariant entity == Payload(items[..i])
    {
      var (id, params) := source[i];
      var script := JObj([("lang", JStr(lang)), ("file", JStr(file)), ("params", params)]);
      var item := JObj([("script", script)]);
      if upsert {
        item := JObj(item.fields + [("upsert", params)]);
      }
      var record := UpdateAction(id) + "\n" + Serialize(item) + "\n";
      assert items[i] == UpdateByScript(id, params, lang, file, upsert) && item == ScriptBody(params, lang, file, upsert);
      RecordText(items[i]);
      PayloadSnoc(items[..i], items[i]);
      assert items[..i + 1] == items[..i] + [items[i]];
      entity := entity + record;
    }
    assert items[..|source|] == items;
  }

  /** None where reading `types` or `ids` at an index of `indices` runs past their end (the call throws). */
  method BuildDeletePayload(indices: seq<string>, types: seq<string>, ids: seq<string>)
    returns (entity: Option<string>)
    ensures entity.None? <==> |types| < |indices| || |ids| < |indices|
    ensures entity.Some? ==> entity.value == Payload(DeleteItems(indices, types, ids))
  {
    var body := "";
    for i := 0 to |indices|
      invariant i <= |types| && i <= |ids|
      invariant body == Payload(DeleteItems(indices[..i], types[..i], ids[..i]))
    {
      if i >= |types| || i >= |ids| {
        return None;
      }
      var record := TargetAction("delete", indices[i], types[i], ids[i]) + "\n";
      DeleteItemsSnoc(indices, types, ids, i);
      RecordText(Delete(indices[i], types[i], ids[i]));
      PayloadSnoc(DeleteItems(indices[..i], types[..i], ids[..i]), Delete(indices[i], types[i], ids[i]));
      body := body + record;
    }
    DeleteItemsPrefix(indices, types, ids);
    entity := Some(body);
  }

  lemma DeleteItemsSnoc(indices: seq<string>, types: seq<string>, ids: seq<string>, i: nat)
    requires i < |indices| && i < |types| && i < |ids|
    ensures DeleteItems(indices[..i + 1], types[..i + 1], ids[..i + 1])
         == DeleteItems(indices[..i], types[..i], ids[..i]) + [Delete(indices[i], types[i], ids[i])]
  {
  }

  /** Only the first |indices| types and ids are read. */
  lemma DeleteItemsPrefix(indices: seq<string>, types: seq<string>, ids: seq<string>)
    requires |types| >= |indices| && |ids| >= |indices|
    ensures DeleteItems(indices[..|indices|], types[..|indices|], ids[..|indices|]) == DeleteItems(indices, types, ids)
  {
  }

  // ---------------------------------------------------------------------
  // Submitting and classifying

  /** The outcome of one bulk submission. */
  datatype BulkResponse =
    | Success
    | PortionFail(items: Option<seq<Json>>)   // the reply's per-item results (None: the reply had no "items")
    | RequestFail(error: Option<Fields>)      // the reply's "error" object (None: it had none)

  /** The error carried when the submission throws. */
  const EmptyObject: Fields := []

  /** `get("errors").getAsBoolean()` of a reply object; None where it throws. */
  function ErrorsFlag(reply: Fields): Option<bool>
  {
    match Member(reply, "errors")
    case None => None
    case Some(v) => AsBoolean(v)
  }

  /**
    The flag is read from the last `errors` binding of the reply, coerced as
    `getAsBoolean` coerces; a reply without one has no flag (the lookup
    yields null and the call throws).
  */
  lemma ErrorsFlagReadsLastBinding(reply: Fields, v: Json)
    ensures ErrorsFlag(reply + [("errors", v)]) == AsBoolean(v)
    ensures (forall i :: 0 <= i < |reply| ==> reply[i].0 != "errors") ==> ErrorsFlag(reply).None?
  {
    MemberIsLastBinding(reply, "errors");
    assert (reply + [("errors", v)])[..|reply|] == reply;
  }

  /** How the client reads the bulk endpoint's reply. */
  function Classify(reply: Reply): (r: BulkResponse)
    ensures r.Success? <==>
              HasStatus(reply, StatusOk) && reply.parsed.Some? && ErrorsFlag(reply.parsed.value) == Some(false)
    ensures r.PortionFail? ==>
              HasStatus(reply, StatusOk) && reply.parsed.Some? && ErrorsFlag(reply.parsed.value) == Some(true) &&
              r.items == (match GetArray(reply.parsed.value, "items") case Found(a) => Some(a) case _ => None)
    ensures r.PortionFail? <==>
              (HasStatus(reply, StatusOk) && reply.parsed.Some? && ErrorsFlag(reply.parsed.value) == Some(true) &&
               !GetArray(reply.parsed.value, "items").WrongType?)
    ensures reply.Response? && reply.status != StatusOk && reply.parsed.Some? ==>
              r == RequestFail(match GetObject(reply.parsed.value, "error")
                               case Found(e) => Some(e) case Absent => None case WrongType => Some(EmptyObject))
    ensures !(reply.Response? && reply.parsed.Some?) ==> r == RequestFail(Some(EmptyObject))
    ensures HasStatus(reply, StatusOk) && reply.parsed.Some? && !r.Success? && !r.PortionFail? ==>
              r == RequestFail(Some(EmptyObject))
  {
    match reply
    case IoFailure => RequestFail(Some(EmptyObject))
    case Response(status, _, parsed) =>
      if parsed.None? then RequestFail(Some(EmptyObject))
      else if status != StatusOk then
        match GetObject(parsed.value, "error")
        case Absent => RequestFail(None)
        case Found(e) => RequestFail(Some(e))
        case WrongType => RequestFail(Some(EmptyObject))
      else
        match ErrorsFlag(parsed.value)
        case None => RequestFail(Some(EmptyObject))
        case Some(false) => Success
        case Some(true) =>
          match GetArray(parsed.value, "items")
          case Absent => PortionFail(None)
          case Found(a) => PortionFail(Some(a))
          case WrongType => RequestFail(Some(EmptyObject))
  }

  /** A reply the bulk endpoint could send for each outcome, with `failStatus` for failed requests. */
  function ReplyFor(outcome: BulkResponse, failStatus: int): Reply
  {
    var (status, body) := match outcome
      case Success => (StatusOk, [("errors", JBool(false))])
      case PortionFail(None) => (StatusOk, [("errors", JBool(true))])
      case PortionFail(Some(a)) => (StatusOk, [("errors", JBool(true)), ("items", JArr(a))])
      case RequestFail(None) => (failStatus, [])
      case RequestFail(Some(e)) => (failStatus, [("error", JObj(e))]);
    Response(status, Serialize(JObj(body)), Some(body))
  }

  /** Every outcome is recognised from the reply that carries it. */
  lemma ClassifyReplyFor(outcome: BulkResponse, failStatus: int)
    requires failStatus != StatusOk
    ensures Classify(ReplyFor(outcome, failStatus)) == outcome
  {
    match outcome
    case Success =>
    case PortionFail(None) =>
    case PortionFail(Some(a)) =>
      assert Member([("errors", JBool(true)), ("items", JArr(a))], "errors") == Some(JBool(true));
    case RequestFail(None) =>
    case RequestFail(Some(e)) =>
  }

  function BulkRequest(url: string, entity: string): Request
  {
    PostRequest(url, Text(entity))
  }

  function BulkUrl(host: string, index: string, docType: string): string
  {
    host + "/" + index + "/" + docType + "/_bulk"
  }

  function MissingTargetError(action: string): Fields
  {
    [("msg", JStr("bulk " + action + " must specify index and type"))]
  }

  /** Submitting a bulk body: one POST, its reply classified. */
  function Submit(url: string, entity: string, server: Request -> Reply): (x: Exchange<BulkResponse>)
    ensures x.sent == [BulkRequest(url, entity)] && x.value == Classify(server(x.sent[0]))
    ensures x.sent[0].body == NoBody <==> entity == ""
  {
    var request := BulkRequest(url, entity);
    Exchange(Classify(server(request)), [request])
  }

  /** Submitting a body the caller wrote, to `/_bulk` or to the bulk endpoint of one index and type. */
  function SubmitPrepared(host: string, target: Option<(string, string)>, entity: string, server: Request -> Reply)
    : (x: Exchange<BulkResponse>)
    ensures |x.sent| == 1 && x.sent[0].verb == Post
    ensures x.sent[0].url == (if target.None? then host + "/_bulk" else BulkUrl(host, target.value.0, target.value.1))
    ensures x.sent[0].body == (if entity == "" then NoBody else Text(entity))
    ensures x.value == Classify(server(x.sent[0]))
  {
    var url := if target.None? then host + "/_bulk" else BulkUrl(host, target.value.0, target.value.1);
    Submit(url, entity, server)
  }

  method BulkInsert(host: string, index: Option<string>, docType: Option<string>, source: seq<(string, string)>,
                    server: Request -> Reply)
    returns (x: Exchange<BulkResponse>)
    ensures index.None? || docType.None? ==> x == Exchange(RequestFail(Some(MissingTargetError("insert"))), [])
    ensures index.Some? && docType.Some? ==>
              x.sent == [BulkRequest(BulkUrl(host, index.value, docType.value), Payload(InsertItems(source)))] &&
              x.value == Classify(server(x.sent[0]))
  {
    if index.None? || docType.None? {
      return Exchange(RequestFail(Some(MissingTargetError("insert"))), []);
    }
    var entity := BuildInsertPayload(source);
    x := Submit(BulkUrl(host, index.value, docType.value), entity, server);
  }

  method BulkUpdate(host: string, index: Option<string>, docType: Option<string>, source: seq<(string, Json)>,
                    upsert: bool, server: Request -> Reply)
    returns (x: Exchange<BulkResponse>)
    ensures index.None? || docType.None? ==> x == Exchange(RequestFail(Some(MissingTargetError("update"))), [])
    ensures index.Some? && docType.Some? ==>
              x.sent == [BulkRequest(BulkUrl(host, index.value, docType.value), Payload(UpdateItems(source, upsert)))] &&
              x.value == Classify(server(x.sent[0]))
  {
    if index.None? || docType.None? {
      return Exchange(RequestFail(Some(MissingTargetError("update"))), []);
    }
    var entity := BuildUpdatePayload(source, upsert);
    x := Submit(BulkUrl(host, index.value, docType.value), entity, server);
  }

  method BulkUpdateByScript(host: string, index: Option<string>, docType: Option<string>,
                            source: seq<(string, Json)>, scriptFile: string, lang: string, upsert: bool,
                            server: Request -> Reply)
    returns (x: Exchange<BulkResponse>)
    ensures index.None? || docType.None? ==> x == Exchange(RequestFail(Some(MissingTargetError("update"))), [])
    ensures index.Some? && docType.Some? ==>
              x.sent == [BulkRequest(BulkUrl(host, index.value, docType.value),
                                     Payload(ScriptItems(source, scriptFile, lang, upsert)))] &&
              x.value == Classify(server(x.sent[0]))
  {
    if index.None? || docType.None? {
      return Exchange(RequestFail(Some(MissingTargetError("update"))), []);
    }
    var entity := BuildScriptPayload(source, scriptFile, lang, upsert);
    x := Submit(BulkUrl(host, index.value, docType.value), entity, server);
  }

  /** The scripted update without a language names the legacy "groovy" language. */
  method BulkUpdateByGroovyScript(host: string, index: Option<string>, docType: Option<string>,
                                  source: seq<(string, Json)>, scriptFile: string, upsert: bool,
                                  server: Request -> Reply)
    returns (x: Exchange<BulkResponse>)
    ensures index.None? || docType.None? ==> x == Exchange(RequestFail(Some(MissingTargetError("update"))), [])
    ensures index.Some? && docType.Some? ==>
              x.sent == [BulkRequest(BulkUrl(host, index.value, docType.value),
                                     Payload(ScriptItems(source, scriptFile, "groovy", upsert)))] &&
              x.value == Classify(server(x.sent[0]))
  {
    x := BulkUpdateByScript(host, index, docType, source, scriptFile, "groovy", upsert, server);
  }

  /** A delete batch; None where the three lists do not line up and the call throws before sending. */
  method BulkDelete(host: string, indices: seq<string>, types: seq<string>, ids: seq<string>,
                    server: Request -> Reply)
    returns (x: Option<Exchange<BulkResponse>>)
    ensures x.None? <==> |types| < |indices| || |ids| < |indices|
    ensures x.Some? ==>
              x.value.sent == [BulkRequest(host + "/_bulk", Payload(DeleteItems(indices, types, ids)))] &&
              x.value.value == Classify(server(x.value.sent[0]))
  {
    var entity := BuildDeletePayload(indices, types, ids);
    if entity.None? {
      return None;
    }
    x := Some(Submit(host + "/_bulk", entity.value, server));
  }

  /** Every update item of a batch carries `doc_as_upsert` exactly when the batch's flag is set. */
  lemma UpsertFlagIsBatchWide(source: seq<(string, Json)>, upsert: bool)
    ensures forall k :: 0 <= k < |source| ==>
              Member(UpdateBody(source[k].1, upsert).fields, "doc_as_upsert") == (if upsert then Some(JBool(true)) else None)
    ensures forall k :: 0 <= k < |source| ==>
              UpdateItems(source, upsert)[k].upsert == upsert
  {
    forall k | 0 <= k < |source|
      ensures Member(UpdateBody(source[k].1, upsert).fields, "doc_as_upsert") == (if upsert then Some(JBool(true)) else None)
    {
      var f := UpdateBody(source[k].1, upsert).fields;
      if upsert {
        assert f[|f| - 1] == ("doc_as_upsert", JBool(true));
      } else {
        assert f == [("doc", source[k].1)];
        assert f[..0] == [];
      }
    }
  }

  /** Every scripted item of a batch carries an `upsert` document exactly when the batch's flag is set. */
  lemma ScriptUpsertIsBatchWide(source: seq<(string, Json)>, file: string, lang: string, upsert: bool)
    ensures forall k :: 0 <= k < |source| ==>
              Member(ScriptBody(source[k].1, lang, file, upsert).fields, "upsert") == (if upsert then Some(source[k].1) else None)
  {
    forall k | 0 <= k < |source|
      ensures Member(ScriptBody(source[k].1, lang, file, upsert).fields, "upsert") == (if upsert then Some(source[k].1) else None)
    {
      var f := ScriptBody(source[k].1, lang, file, upsert).fields;
      if upsert {
        assert f[|f| - 1] == ("upsert", source[k].1);
      } else {
        assert f[..0] == [];
      }
    }
  }

  /**
    A bulk insert of N entries sends 2N newline-terminated lines: entry k's
    action line naming its id, then its source, in the map's iteration order.
  */
  lemma InsertPayloadLines(source: seq<(string, string)>)
    requires forall k :: 0 <= k < |source| ==> Avoids(source[k].0, {'\n'}) && Avoids(source[k].1, {'\n'})
    ensures var lines := BulkLines(InsertItems(source));
            && Pieces(Payload(InsertItems(source)), {'\n'}) == lines + [""]
            && |lines| == 2 * |source|
            && forall k :: 0 <= k < |source| ==>
                 lines[2 * k] == IdAction("index", source[k].0) && lines[2 * k + 1] == source[k].1
  {
    var items := InsertItems(source);
    PayloadSplitsIntoLines(items);
    TwoLineLayout(items);
    forall k | 0 <= k < |source| ensures ActionLine(items[k]) == IdAction("index", source[k].0) {
      assert items[k] == IndexById(source[k].0, source[k].1);
    }
  }

  /** A delete batch of N targets sends N lines, line k naming indices[k], types[k] and ids[k]. */
  lemma DeletePayloadLines(indices: seq<string>, types: seq<string>, ids: seq<string>)
    requires |types| >= |indices| && |ids| >= |indices|
    requires forall k :: 0 <= k < |indices| ==>
               Avoids(indices[k], {'\n'}) && Avoids(types[k], {'\n'}) && Avoids(ids[k], {'\n'})
    ensures var lines := BulkLines(DeleteItems(indices, types, ids));
            && Pieces(Payload(DeleteItems(indices, types, ids)), {'\n'}) == lines + [""]
            && |lines| == |indices|
            && forall k :: 0 <= k < |indices| ==>
                 lines[k] == TargetAction("delete", indices[k], types[k], ids[k])
  {
    var items := DeleteItems(indices, types, ids);
    PayloadSplitsIntoLines(items);
    DeleteLayout(items);
  }

  /** A bulk update of N entries sends 2N lines: the update action for entry k, then its serialized body. */
  lemma UpdatePayloadLines(source: seq<(string, Json)>, upsert: bool)
    requires forall k :: 0 <= k < |source| ==> Avoids(source[k].0, {'\n'})
    ensures var lines := BulkLines(UpdateItems(source, upsert));
            && Pieces(Payload(UpdateItems(source, upsert)), {'\n'}) == lines + [""]
            && |lines| == 2 * |source|
            && forall k :: 0 <= k < |source| ==>
                 lines[2 * k] == UpdateAction(source[k].0) && lines[2 * k + 1] == Serialize(UpdateBody(source[k].1, upsert))
  {
    var items := UpdateItems(source, upsert);
    PayloadSplitsIntoLines(items);
    TwoLineLayout(items);
    forall k | 0 <= k < |source|
      ensures ActionLine(items[k]) == UpdateAction(source[k].0)
      ensures SourceLine(items[k]) == Some(Serialize(UpdateBody(source[k].1, upsert)))
    {
      assert items[k] == UpdateDoc(source[k].0, source[k].1, upsert);
    }
  }
}

=== FILE: documents.dfy ===
/**
  Single-document requests: insert, partial update, fetch by id, and the
  existence checks for an index and a snapshot repository. Each sends at
  most one request; the server is a function from request to reply.
*/
module Documents {
  import opened Options
  import opened Text
  import opened Json
  import opened Http

  /** The address of one document, with every space removed from the formatted text. */
  function DocumentUrl(host: string, index: string, docType: string, id: string): (url: string)
    ensures Avoids(url, {' '})
  {
    RemoveSpaces(host + "/" + index + "/" + docType + "/" + id)
  }

  /**
    Stripping spaces from the formatted address is the same as formatting
    the stripped parts: a space in any argument is dropped, and the slashes
    between the parts stay where they are.
  */
  lemma DocumentUrlParts(host: string, index: string, docType: string, id: string)
    ensures DocumentUrl(host, index, docType, id) ==
            RemoveSpaces(host) + "/" + RemoveSpaces(index) + "/" + RemoveSpaces(docType) + "/" + RemoveSpaces(id)
  {
    var slash := "/";
    RemoveSpacesKeepsSpaceFree(slash);
    RemoveSpacesConcat(host + "/" + index + "/" + docType + "/", id);
    RemoveSpacesConcat(host + "/" + index + "/" + docType, "/");
    RemoveSpacesConcat(host + "/" + index + "/", docType);
    RemoveSpacesConcat(host + "/" + index, "/");
    RemoveSpacesConcat(host + "/", index);
    RemoveSpacesConcat(host, "/");
  }

  /** Arguments that differ only in spaces address the same document. */
  lemma DocumentUrlIgnoresSpaces(host: string, index: string, docType: string, id: string)
    ensures DocumentUrl(host, index, docType, id) ==
            DocumentUrl(RemoveSpaces(host), RemoveSpaces(index), RemoveSpaces(docType), RemoveSpaces(id))
  {
    DocumentUrlParts(host, index, docType, id);
    DocumentUrlParts(RemoveSpaces(host), RemoveSpaces(index), RemoveSpaces(docType), RemoveSpaces(id));
    RemoveSpacesIdempotent(host);
    RemoveSpacesIdempotent(index);
    RemoveSpacesIdempotent(docType);
    RemoveSpacesIdempotent(id);
  }

  /** Writes one document; a missing source writes the empty object. True exactly on 200 or 201. */
  function Insert(host: string, index: Option<string>, docType: Option<string>, id: Option<string>,
                  source: Option<Fields>, server: Request -> Reply): (x: Exchange<bool>)
    ensures index.None? || docType.None? || id.None? ==> x == Exchange(false, [])
    ensures index.Some? && docType.Some? && id.Some? ==>
              && |x.sent| == 1
              && x.sent[0].verb == Post
              && x.sent[0].url == DocumentUrl(host, index.value, docType.value, id.value)
              && x.sent[0].body == Document(JObj(if source.None? then [] else source.value))
              && (x.value <==> IsStored(server(x.sent[0])))
  {
    if index.None? || docType.None? || id.None? then Exchange(false, [])
    else
      var url := DocumentUrl(host, index.value, docType.value, id.value);
      var request := PostRequest(url, Document(JObj(if source.None? then [] else source.value)));
      Exchange(IsStored(server(request)), [request])
  }

  /** The three ways an update request ends. */
  datatype UpdateStatus = Updated | DocumentMissing | UpdateFailed

  /** 200 or 201 is an update, 404 a missing document, anything else (or no reply) a failure. */
  function UpdateOutcome(reply: Reply): (r: UpdateStatus)
    ensures r == Updated <==> IsStored(reply)
    ensures r == DocumentMissing <==> HasStatus(reply, StatusNotFound)
  {
    if IsStored(reply) then Updated
    else if HasStatus(reply, StatusNotFound) then DocumentMissing
    else UpdateFailed
  }

  /** The body of a partial update: the new fields under "doc" and the upsert switch. */
  function UpdateRequestBody(source: Option<Fields>, isUpsert: bool): Json
  {
    JObj([("doc", JObj(if source.None? then [] else source.value)), ("doc_as_upsert", JBool(isUpsert))])
  }

  /** Partially updates one document. True exactly when the outcome is an update. */
  function Update(host: string, index: Option<string>, docType: Option<string>, id: Option<string>,
                  source: Option<Fields>, isUpsert: bool, server: Request -> Reply): (x: Exchange<bool>)
    ensures index.None? || docType.None? || id.None? ==> x == Exchange(false, [])
    ensures index.Some? && docType.Some? && id.Some? ==>
              && |x.sent| == 1
              && x.sent[0].verb == Post
              && x.sent[0].url == DocumentUrl(host, index.value, docType.value, id.value) + "/_update"
              && x.sent[0].body.Document?
              && x.sent[0].body.doc.JObj?
              && |x.sent[0].body.doc.fields| == 2
              && Member(x.sent[0].body.doc.fields, "doc") == Some(JObj(if source.None? then [] else source.value))
              && Member(x.sent[0].body.doc.fields, "doc_as_upsert") == Some(JBool(isUpsert))
              && (x.value <==> UpdateOutcome(server(x.sent[0])) == Updated)
  {
    if index.None? || docType.None? || id.None? then Exchange(false, [])
    else
      var url := RemoveSpaces(host + "/" + index.value + "/" + docType.value + "/" + id.value + "/_update");
      UpdateUrlSuffix(host, index.value, docType.value, id.value);
      var request := PostRequest(url, Document(UpdateRequestBody(source, isUpsert)));
      Exchange(UpdateOutcome(server(request)) == Updated, [request])
  }

  /** The update address is the document address followed by `/_update`. */
  lemma UpdateUrlSuffix(host: string, index: string, docType: string, id: string)
    ensures RemoveSpaces(host + "/" + index + "/" + docType + "/" + id + "/_update")
         == DocumentUrl(host, index, docType, id) + "/_update"
  {
    RemoveSpacesConcat(host + "/" + index + "/" + docType + "/" + id, "/_update");
    RemoveSpacesKeepsSpaceFree("/_update");
  }

  /** A document missing on the server makes an update report failure, upsert or not. */
  lemma MissingDocumentIsNoUpdate(host: string, index: string, docType: string, id: string,
                                  source: Option<Fields>, isUpsert: bool, server: Request -> Reply)
    requires forall r: Request :: HasStatus(server(r), StatusNotFound)
    ensures !Update(host, Some(index), Some(docType), Some(id), source, isUpsert, server).value
    ensures UpdateOutcome(server(Update(host, Some(index), Some(docType), Some(id), source, isUpsert, server).sent[0]))
         == DocumentMissing
  {
  }

  /** The text of a reply when its status is 200; nothing otherwise. */
  function BodyIfOk(reply: Reply): (r: Option<string>)
    ensures r.Some? <==> HasStatus(reply, StatusOk)
    ensures r.Some? ==> r.value == reply.text
  {
    if HasStatus(reply, StatusOk) then Some(reply.text) else None
  }

  /** Fetches a document's source. Null arguments are formatted as "null"; spaces are kept. */
  function SelectById(host: string, index: Option<string>, docType: Option<string>, id: Option<string>,
                      server: Request -> Reply): (x: Exchange<Option<string>>)
    ensures x.sent == [GetRequest(host + "/" + Show(index) + "/" + Show(docType) + "/" + Show(id) + "/_source")]
    ensures x.value.Some? <==> HasStatus(server(x.sent[0]), StatusOk)
    ensures x.value.Some? ==> x.value.value == server(x.sent[0]).text
  {
    var request := GetRequest(host + "/" + Show(index) + "/" + Show(docType) + "/" + Show(id) + "/_source");
    Exchange(BodyIfOk(server(request)), [request])
  }

  /** `host/index/`: the address of an index. */
  function IndexUrl(host: string, index: Option<string>): string
  {
    host + "/" + Show(index) + "/"
  }

  /** An index is reported missing only on 404 or when no reply arrives; any other status counts as present. */
  function CheckIndexExist(host: string, index: Option<string>, server: Request -> Reply): (x: Exchange<bool>)
    ensures x.sent == [GetRequest(IndexUrl(host, index))]
    ensures !x.value <==> server(x.sent[0]).IoFailure? || HasStatus(server(x.sent[0]), StatusNotFound)
  {
    var request := GetRequest(IndexUrl(host, index));
    var reply := server(request);
    Exchange(!(reply.IoFailure? || HasStatus(reply, StatusNotFound)), [request])
  }

  /** `host/_snapshot/repo`: the address of a snapshot repository. */
  function RepositoryUrl(host: string, repo: Option<string>): string
  {
    host + "/_snapshot/" + Show(repo)
  }

  /** A repository exists exactly when its address answers 200. */
  function CheckRepositoryExist(host: string, repo: Option<string>, server: Request -> Reply): (x: Exchange<bool>)
    ensures x.sent == [GetRequest(RepositoryUrl(host, repo))]
    ensures x.value <==> HasStatus(server(x.sent[0]), StatusOk)
  {
    var request := GetRequest(RepositoryUrl(host, repo));
    Exchange(HasStatus(server(request), StatusOk), [request])
  }

  /**
    The two existence checks disagree on everything but 200 and 404: an
    index answering with a server error counts as present, a repository
    does not.
  */
  lemma ExistenceChecksDiffer(host: string, name: Option<string>, server: Request -> Reply)
    requires forall r: Request :: server(r).Response? && server(r).status == 500
    ensures CheckIndexExist(host, name, server).value
    ensures !CheckRepositoryExist(host, name, server).value
  {
  }
}

=== FILE: http.dfy ===
/**
  Requests the client sends and the replies it can get. The transport
  itself (connection pool, timeouts, the HTTP library) is not modelled: a
  single-request operation receives the server as a function from request
  to reply and reports the requests it sent.
*/
module Http {
  import opened Options
  import opened Json

  datatype Method = Get | Post | Put

  datatype Body =
    | NoBody
    | Text(text: string)     // a body the client writes itself
    | Document(doc: Json)    // a body rendered by the project's JSON helper, whose layout is not modelled

  datatype Request = Request(verb: Method, url: string, body: Body)

  /**
    What executing a request yields: an I/O failure once the retry policy
    gives up, or a status with the body text and, when the text is a JSON
    object, its parse.
  */
  datatype Reply =
    | IoFailure
    | Response(status: int, text: string, parsed: Option<Fields>)

  /** The result of an operation together with the requests it sent, in order. */
  datatype Exchange<T> = Exchange(value: T, sent: seq<Request>)

  /** Status codes with a meaning of their own (section 15 of RFC 9110). */
  const StatusOk := 200         // section 15.3.1
  const StatusCreated := 201    // section 15.3.2
  const StatusNotFound := 404   // section 15.5.5

  predicate HasStatus(reply: Reply, status: int)
  {
    reply.Response? && reply.status == status
  }

  /** A reply the document operations count as a success: 200 or 201. */
  predicate IsStored(reply: Reply)
  {
    HasStatus(reply, StatusOk) || HasStatus(reply, StatusCreated)
  }

  function GetRequest(url: string): Request
  {
    Request(Get, url, NoBody)
  }

  /** A POST; an empty text body is not attached at all. */
  function PostRequest(url: string, entity: Body): (r: Request)
    ensures r.verb == Post && r.url == url
    ensures r.body == NoBody <==> entity == NoBody || entity == Text("")
    ensures r.body != NoBody ==> r.body == entity
  {
    if entity == Text("") then Request(Post, url, NoBody) else Request(Post, url, entity)
  }

  /** Requests that carry (or may carry) an entity: POST and PUT, whether or not one was attached. */
  predicate IsEntityEnclosing(m: Method)
  {
    m == Post || m == Put
  }

  /** How `String.format` renders a possibly-null string argument. */
  function Show(s: Option<string>): string
  {
    if s.None? then "null" else s.value
  }
}

=== FILE: json.dfy ===
/**
  The JSON values the client builds and reads. Parsing is not modelled (a
  reply carries its parsed body); what is modelled is how the client's JSON
  library looks up members, coerces primitives, and writes an element in
  compact form (the `toString` of an element).
*/
module Json {
  import opened Options
  import opened Text

  datatype Json =
    | JNull
    | JBool(b: bool)
    | JNum(n: int)
    | JStr(s: string)
    | JArr(items: seq<Json>)
    | JObj(fields: Fields)

  /** The members of an object, in insertion order. */
  type Fields = seq<(string, Json)>

  /** The member named `key`; a later binding of the same name replaces an earlier one. */
  function Member(fields: Fields, key: string): Option<Json>
  {
    if fields == [] then None
    else if fields[|fields| - 1].0 == key then Some(fields[|fields| - 1].1)
    else Member(fields[..|fields| - 1], key)
  }

  /** A lookup finds a member exactly when one has the name, and then it is the last binding of that name. */
  lemma {:induction false} MemberIsLastBinding(fields: Fields, key: string)
    ensures Member(fields, key).None? <==> forall i :: 0 <= i < |fields| ==> fields[i].0 != key
    ensures Member(fields, key).Some? ==>
              exists i :: 0 <= i < |fields| && fields[i] == (key, Member(fields, key).value) &&
                forall j :: i < j < |fields| ==> fields[j].0 != key
  {
    if fields != [] && fields[|fields| - 1].0 != key {
      var prefix := fields[..|fields| - 1];
      MemberIsLastBinding(prefix, key);
      if Member(prefix, key).Some? {
        var i :| 0 <= i < |prefix| && prefix[i] == (key, Member(prefix, key).value) &&
                 forall j :: i < j < |prefix| ==> prefix[j].0 != key;
        assert fields[i] == prefix[i];
        forall j | i < j < |fields| ensures fields[j].0 != key {
          if j < |prefix| { assert fields[j] == prefix[j]; }
        }
      } else {
        forall i | 0 <= i < |fields| ensures fields[i].0 != key {
          if i < |prefix| { assert fields[i] == prefix[i]; }
        }
      }
    }
  }

  /** What a typed member lookup (`getAsJsonObject`, `getAsJsonArray`) yields. */
  datatype Lookup<T> =
    | Absent          // the lookup returns null
    | Found(v: T)
    | WrongType       // the cast fails and an exception is thrown

  function GetObject(fields: Fields, key: string): Lookup<Fields>
  {
    match Member(fields, key)
    case None => Absent
    case Some(JObj(f)) => Found(f)
    case Some(_) => WrongType
  }

  function GetArray(fields: Fields, key: string): Lookup<seq<Json>>
  {
    match Member(fields, key)
    case None => Absent
    case Some(JArr(a)) => Found(a)
    case Some(_) => WrongType
  }

  function LowerAscii(c: char): char
  {
    if 'A' <= c <= 'Z' then (c as int + 32) as char else c
  }

  /** Java's `Boolean.parseBoolean`: "true" in any letter case. */
  predicate ParseBoolean(s: string)
  {
    |s| == 4 && LowerAscii(s[0]) == 't' && LowerAscii(s[1]) == 'r' &&
    LowerAscii(s[2]) == 'u' && LowerAscii(s[3]) == 'e'
  }

  /** `getAsBoolean` of an element; None where the library throws. */
  function AsBoolean(j: Json): Option<bool>
  {
    match j
    case JBool(b) => Some(b)
    case JStr(s) => Some(ParseBoolean(s))
    case JNum(_) => Some(false)
    case JArr(items) => if |items| == 1 then AsBoolean(items[0]) else None
    case _ => None
  }

  /** `getAsString` of an element; None where the library throws. */
  function AsString(j: Json): Option<string>
  {
    match j
    case JStr(s) => Some(s)
    case JNum(n) => Some(IntToString(n))
    case JBool(b) => Some(if b then "true" else "false")
    case JArr(items) => if |items| == 1 then AsString(items[0]) else None
    case _ => None
  }

  predicate IsDecimalDigit(c: char) { '0' <= c <= '9' }

  function DigitsValue(s: string): nat
    requires forall i :: 0 <= i < |s| ==> IsDecimalDigit(s[i])
  {
    if s == [] then 0
    else
      assert IsDecimalDigit(s[|s| - 1]);
      DigitsValue(s[..|s| - 1]) * 10 + (s[|s| - 1] as int - '0' as int)
  }

  const MinLong: int := -0x8000_0000_0000_0000
  const MaxLong: int := 0x7FFF_FFFF_FFFF_FFFF

  /** Java's `Long.parseLong` over ASCII digits with an optional sign; None where it throws. */
  function ParseLong(s: string): Option<int>
  {
    var signed := |s| > 0 && (s[0] == '-' || s[0] == '+');
    var digits := if signed then s[1..] else s;
    if digits == [] || !(forall i :: 0 <= i < |digits| ==> IsDecimalDigit(digits[i])) then None
    else
      var magnitude: int := DigitsValue(digits);
      var v := if signed && s[0] == '-' then -magnitude else magnitude;
      if MinLong <= v <= MaxLong then Some(v) else None
  }

  /** Whether `getAsLong` of an element returns rather than throws. */
  predicate LongConvertible(j: Json)
  {
    match j
    case JNum(_) => true
    case JStr(s) => ParseLong(s).Some?
    case JBool(b) => false
    case JArr(items) => |items| == 1 && LongConvertible(items[0])
    case _ => false
  }

  function DigitChar(d: nat): char
    requires d < 16
  {
    "0123456789abcdef"[d]
  }

  function NatToString(n: nat): (r: string)
    ensures r != [] && forall i :: 0 <= i < |r| ==> IsDecimalDigit(r[i])
  {
    if n < 10 then [DigitChar(n)] else NatToString(n / 10) + [DigitChar(n % 10)]
  }

  function IntToString(n: int): string
  {
    if n < 0 then "-" + NatToString(-n) else NatToString(n)
  }

  /** Reading the digits `NatToString` writes gives the number back. */
  lemma {:induction false} DigitsValueOfNatToString(n: nat)
    ensures DigitsValue(NatToString(n)) == n
  {
    var r := NatToString(n);
    if n < 10 {
      assert r[..0] == [];
    } else {
      DigitsValueOfNatToString(n / 10);
      assert r[..|r| - 1] == NatToString(n / 10);
    }
  }

  /**
    A long written in decimal, as `getAsString` writes a number, parses back
    to itself: `getAsLong` of the string form of a number is that number.
  */
  lemma ParseLongOfIntToString(n: int)
    requires MinLong <= n <= MaxLong
    ensures ParseLong(IntToString(n)) == Some(n)
    ensures AsString(JNum(n)) == Some(IntToString(n)) && LongConvertible(JStr(IntToString(n)))
  {
    if n < 0 {
      NegativeParsesBack(-n);
    } else {
      DigitsValueOfNatToString(n);
      assert IsDecimalDigit(NatToString(n)[0]);
    }
  }

  /** A minus sign before the digits of a magnitude reads back as its negation. */
  lemma NegativeParsesBack(m: nat)
    ensures ParseLong("-" + NatToString(m)) == (if MinLong <= -(m as int) then Some(-(m as int)) else None)
  {
    var s := "-" + NatToString(m);
    DigitsValueOfNatToString(m);
    assert s[1..] == NatToString(m);
  }

  /**
    `parseBoolean` ignores letter case, and the string form of a boolean
    reads back as that boolean, directly or as a one-element array.
  */
  lemma AsBooleanReadsBack(b: bool)
    ensures AsString(JBool(b)).Some? && AsBoolean(JStr(AsString(JBool(b)).value)) == Some(b)
    ensures AsBoolean(JArr([JBool(b)])) == Some(b)
    ensures AsBoolean(JStr("TRUE")) == Some(true) && AsBoolean(JStr("yes")) == Some(false)
    ensures AsBoolean(JNull).None? && AsBoolean(JObj([])).None? && AsBoolean(JArr([])).None?
  {
  }

  /** No character below the space: no newline, no other control character. */
  predicate Printable(s: string)
  {
    forall i :: 0 <= i < |s| ==> s[i] >= ' '
  }

  /** How the library writes one character inside a string literal. */
  function EscapeChar(c: char): (r: string)
    ensures Printable(r)
  {
    var code := c as int;
    if c == '"' then "\\\""
    else if c == '\\' then "\\\\"
    else if c == '\t' then "\\t"
    else if code == 8 then "\\b"
    else if c == '\n' then "\\n"
    else if c == '\r' then "\\r"
    else if code == 12 then "\\f"
    else if code < 0x20 then "\\u00" + [DigitChar(code / 16), DigitChar(code % 16)]
    else if code == 0x2028 then "\\u2028"
    else if code == 0x2029 then "\\u2029"
    else [c]
  }

  function Escape(s: string): (r: string)
    ensures Printable(r)
  {
    if s == [] then "" else Escape(s[..|s| - 1]) + EscapeChar(s[|s| - 1])
  }

  function Quote(s: string): (r: string)
    ensures Printable(r)
  {
    "\"" + Escape(s) + "\""
  }

  /** The compact text of an element, as the library's `toString` writes it. */
  function Serialize(j: Json): (r: string)
    ensures Printable(r)
    decreases j, 1
  {
    match j
    case JNull => "null"
    case JBool(b) => if b then "true" else "false"
    case JNum(n) => IntToString(n)
    case JStr(s) => Quote(s)
    case JArr(items) => "[" + SerializeItems(items) + "]"
    case JObj(fields) => "{" + SerializeFields(fields) + "}"
  }

  function SerializeItems(items: seq<Json>): (r: string)
    ensures Printable(r)
    decreases items, 0
  {
    if items == [] then ""
    else if |items| == 1 then Serialize(items[0])
    else Serialize(items[0]) + "," + SerializeItems(items[1..])
  }

  function SerializeFields(fields: Fields): (r: string)
    ensures Printable(r)
    decreases fields, 0
  {
    if fields == [] then ""
    else
      var (name, value) := fields[0];
      assert value < fields[0];
      var member := Quote(name) + ":" + Serialize(value);
      if |fields| == 1 then member else member + "," + SerializeFields(fields[1..])
  }

  /** A serialized element fits on one line of a newline-delimited payload. */
  lemma SerializeIsOneLine(j: Json)
    ensures Avoids(Serialize(j), {'\n'})
  {
  }
}

=== FILE: options.dfy ===
/** The optional value used throughout the model in place of Java's `null`. */
module Options {

  datatype Option<+T> = None | Some(value: T)

}

=== FILE: retry.dfy ===
/**
  The retry policy the pooled client consults after an attempt fails with
  an I/O exception. Checks are made in a fixed order, each an `instanceof`
  test, and the first that matches decides.
*/
module Retry {
  import opened Http

  /** The concrete exception an attempt failed with. */
  datatype Failure =
    | NoHttpResponse        // the server dropped the connection without answering
    | SslHandshake          // a TLS handshake failure
    | SocketTimeout         // a read timeout
    | ConnectTimeout        // a connect timeout (the HTTP library's own interrupted-I/O subclass)
    | InterruptedIo         // any other interrupted I/O
    | UnknownHost           // the host name does not resolve
    | SslOther              // any other TLS failure (peer unverified, protocol error, ...)
    | TruncatedChunk        // a chunked body ended early
    | OtherIo               // any other I/O failure, e.g. a connection reset

  /** The exception classes the policy tests for. */
  datatype ExceptionClass =
    | NoHttpResponseException
    | SSLHandshakeException
    | SocketTimeoutException
    | InterruptedIOException
    | UnknownHostException
    | SSLException
    | TruncatedChunkException

  /** `f instanceof c`: a failure is an instance of its own class and of every superclass. */
  predicate InstanceOf(f: Failure, c: ExceptionClass)
  {
    match c
    case NoHttpResponseException => f == NoHttpResponse
    case SSLHandshakeException => f == SslHandshake
    case SocketTimeoutException => f == SocketTimeout
    case InterruptedIOException => f == SocketTimeout || f == ConnectTimeout || f == InterruptedIo
    case UnknownHostException => f == UnknownHost
    case SSLException => f == SslHandshake || f == SslOther
    case TruncatedChunkException => f == TruncatedChunk
  }

  /** The most attempts a request gets. */
  const MaxExecutions := 5

  /** Failures worth another attempt whatever the request. */
  predicate IsTransient(f: Failure)
  {
    f in {NoHttpResponse, SocketTimeout, ConnectTimeout, InterruptedIo, TruncatedChunk}
  }

  /** Failures never worth another attempt. */
  predicate IsPermanent(f: Failure)
  {
    f in {SslHandshake, UnknownHost, SslOther}
  }

  /**
    Whether to try again after attempt number `executionCount` failed with
    `f` while sending a request whose method is `request`.
  */
  function RetryRequest(f: Failure, executionCount: int, request: Method): (retry: bool)
    ensures executionCount >= MaxExecutions ==> !retry
    ensures executionCount < MaxExecutions ==>
              (retry <==> IsTransient(f) || (!IsTransient(f) && !IsPermanent(f) && !IsEntityEnclosing(request)))
    ensures retry && IsEntityEnclosing(request) ==> IsTransient(f)
  {
    if executionCount >= MaxExecutions then false
    else if InstanceOf(f, NoHttpResponseException) then true
    else if InstanceOf(f, SSLHandshakeException) then false
    else if InstanceOf(f, SocketTimeoutException) then true
    else if InstanceOf(f, InterruptedIOException) then true
    else if InstanceOf(f, UnknownHostException) then false
    else if InstanceOf(f, SSLException) then false
    else if InstanceOf(f, TruncatedChunkException) then true
    else !IsEntityEnclosing(request)
  }

  /**
    The policy's order matters: a handshake failure is also an SSL failure
    and a socket timeout is also interrupted I/O, yet each is decided by
    the earlier, more specific test.
  */
  lemma SubclassesDecidedFirst(executionCount: int, request: Method)
    requires executionCount < MaxExecutions
    ensures InstanceOf(SslHandshake, SSLException) && !RetryRequest(SslHandshake, executionCount, request)
    ensures InstanceOf(SocketTimeout, InterruptedIOException) && RetryRequest(SocketTimeout, executionCount, request)
  {
  }

  /** A GET is retried after an unclassified failure; a POST or PUT never is, with or without an entity. */
  lemma OtherFailuresRetryOnlyBodiless(executionCount: int)
    requires executionCount < MaxExecutions
    ensures RetryRequest(OtherIo, executionCount, Get)
    ensures !RetryRequest(OtherIo, executionCount, Post) && !RetryRequest(OtherIo, executionCount, Put)
  {
  }
}

=== FILE: scroll.dfy ===
/**
  Search addresses and the scroll dump: a first scroll search, then one
  scroll request per page, each page's hits turned into CSV lines and
  appended to a file, until a page comes back empty or a step fails.
  The scroll server is stateful, so the dump takes the replies to its
  successive scroll requests as a sequence.
*/
module Scroll {
  import opened Options
  import opened Text
  import opened Json
  import opened Http
  import opened Documents

  /** `host/index/` or, with a type, `host/index/type/`, followed by an endpoint. */
  function SearchUrl(host: string, index: string, docType: Option<string>, endpoint: string): string
  {
    if docType.None? then host + "/" + index + "/" + endpoint
    else host + "/" + index + "/" + docType.value + "/" + endpoint
  }

  /** Naming a type inserts one path segment between the index and the endpoint. */
  lemma TypedSearchUrl(host: string, index: string, docType: string, endpoint: string)
    ensures SearchUrl(host, index, Some(docType), endpoint) == SearchUrl(host, index, None, "") + docType + "/" + endpoint
  {
  }

  /**
    Every search address (`_search`, `_msearch`, `_search?scroll=5m`) lies
    under the index address that the existence check probes.
  */
  lemma SearchUrlExtendsIndexUrl(host: string, index: string, docType: Option<string>, endpoint: string)
    ensures SearchUrl(host, index, docType, endpoint) ==
            IndexUrl(host, Some(index)) + (if docType.Some? then docType.value + "/" else "") + endpoint
  {
  }

  /** The first search of a scroll keeps the context alive for five minutes. */
  const FirstScrollEndpoint := "_search?scroll=5m"

  /** The address of the next page of a scroll. */
  function ScrollUrl(host: string, scrollId: string): string
  {
    host + "/_search/scroll?scroll=5m&scroll_id=" + scrollId
  }

  /** A scroll id is the last part of its scroll address, so different ids ask for different scrolls. */
  lemma ScrollUrlDeterminesId(host: string, id1: string, id2: string)
    requires ScrollUrl(host, id1) == ScrollUrl(host, id2)
    ensures id1 == id2
  {
    var prefix := host + "/_search/scroll?scroll=5m&scroll_id=";
    assert ScrollUrl(host, id1)[|prefix|..] == id1;
    assert ScrollUrl(host, id2)[|prefix|..] == id2;
  }

  function FirstScrollRequest(host: string, index: string, docType: Option<string>, query: Option<string>): Request
  {
    PostRequest(SearchUrl(host, index, docType, FirstScrollEndpoint), Text(if query.None? then "" else query.value))
  }

  /** Opens a scroll; the reply text on 200, nothing otherwise. */
  function GetFirstScrollSearch(host: string, index: string, docType: Option<string>, query: Option<string>,
                                server: Request -> Reply): (x: Exchange<Option<string>>)
    ensures x.sent == [FirstScrollRequest(host, index, docType, query)]
    ensures x.sent[0].body == NoBody <==> query.None? || query == Some("")
    ensures x.value.Some? <==> HasStatus(server(x.sent[0]), StatusOk)
    ensures x.value.Some? ==> x.value.value == server(x.sent[0]).text
  {
    var request := FirstScrollRequest(host, index, docType, query);
    Exchange(BodyIfOk(server(request)), [request])
  }

  /** Fetches the next page of a scroll; the reply text on 200, nothing otherwise. */
  function GetScrollSearch(host: string, scrollId: string, server: Request -> Reply): (x: Exchange<Option<string>>)
    ensures x.sent == [GetRequest(ScrollUrl(host, scrollId))]
    ensures x.value.Some? <==> HasStatus(server(x.sent[0]), StatusOk)
    ensures x.value.Some? ==> x.value.value == server(x.sent[0]).text
  {
    var request := GetRequest(ScrollUrl(host, scrollId));
    Exchange(BodyIfOk(server(request)), [request])
  }

  /** `hits.hits` of a parsed reply; None where the lookup throws or yields null. */
  function HitsOf(parsed: Option<Fields>): Option<seq<Json>>
  {
    if parsed.None? then None
    else match GetObject(parsed.value, "hits")
      case Found(h) => (match GetArray(h, "hits") case Found(a) => Some(a) case _ => None)
      case _ => None
  }

  /** Whether `hits.total` of the first reply reads as a long. */
  predicate HasTotal(parsed: Option<Fields>)
  {
    parsed.Some? &&
    match GetObject(parsed.value, "hits")
    case Found(h) => Member(h, "total").Some? && LongConvertible(Member(h, "total").value)
    case _ => false
  }

  /** `_scroll_id` of the first reply as a string; None where reading it throws. */
  function ScrollIdOf(parsed: Option<Fields>): Option<string>
  {
    if parsed.None? then None
    else match Member(parsed.value, "_scroll_id")
      case None => None
      case Some(v) => AsString(v)
  }

  /** A scroll reply after which the dump asks for another page. */
  predicate Continues(reply: Reply)
  {
    HasStatus(reply, StatusOk) && HitsOf(reply.parsed).Some? && |HitsOf(reply.parsed).value| > 0
  }

  /**
    The reply to scroll request number `k`: the k-th of the replies the
    server gives; a request past them gets no reply.
  */
  function ScrollReply(next: seq<Reply>, k: nat): Reply
  {
    if k < |next| then next[k] else IoFailure
  }

  /**
    The CSV lines of a page's hits, in order, skipping hits the mapper
    turns into null; None where a hit is not an object (the cast throws).
  */
  function CsvLines(hits: seq<Json>, toCsv: Fields -> Option<string>): Option<seq<string>>
  {
    if hits == [] then Some([])
    else
      var before := CsvLines(hits[..|hits| - 1], toCsv);
      var hit := hits[|hits| - 1];
      if before.None? || !hit.JObj? then None
      else Some(before.value + (if toCsv(hit.fields).Some? then [toCsv(hit.fields).value] else []))
  }

  /** What a dump leaves behind: the lines appended to the file page by page, and the requests sent. */
  datatype Trace = Trace(pages: seq<seq<string>>, sent: seq<Request>)

  /** The dump from a loop head holding the page `hits`, with `k` scroll replies used so far. */
  function DumpFrom(host: string, scrollId: Option<string>, hits: seq<Json>, next: seq<Reply>, k: nat,
                    toCsv: Fields -> Option<string>): Trace
    decreases |next| - k
  {
    if |hits| == 0 then Trace([], [])
    else
      var lines := CsvLines(hits, toCsv);
      if lines.None? then Trace([], [])
      else if scrollId.None? then Trace([lines.value], [])
      else
        var request := GetRequest(ScrollUrl(host, scrollId.value));
        var reply := ScrollReply(next, k);
        if !HasStatus(reply, StatusOk) || HitsOf(reply.parsed).None? then Trace([lines.value], [request])
        else
          var rest := DumpFrom(host, scrollId, HitsOf(reply.parsed).value, next, k + 1, toCsv);
          Trace([lines.value] + rest.pages, [request] + rest.sent)
  }

  /** The whole dump, from the first scroll search on. */
  function Dump(host: string, index: string, docType: Option<string>, query: Option<string>,
                first: Reply, next: seq<Reply>, toCsv: Fields -> Option<string>): Trace
  {
    var request := FirstScrollRequest(host, index, docType, query);
    if !HasStatus(first, StatusOk) || HitsOf(first.parsed).None? || !HasTotal(first.parsed) then Trace([], [request])
    else
      var rest := DumpFrom(host, ScrollIdOf(first.parsed), HitsOf(first.parsed).value, next, 0, toCsv);
      Trace(rest.pages, [request] + rest.sent)
  }

  /** The file text appended by a dump: each page's lines, newline-terminated. */
  function FileText(pages: seq<seq<string>>): string
  {
    if pages == [] then "" else Frame(pages[0]) + FileText(pages[1..])
  }

  /** The number of lines over all pages. */
  function LineCount(pages: seq<seq<string>>): nat
  {
    if pages == [] then 0 else |pages[0]| + LineCount(pages[1..])
  }

  /**
    Part of a dump is done and `rest` remains: the text already in the file,
    the number of lines written and the requests sent are what the whole
    dump leaves once the rest is added.
  */
  ghost predicate Progress(file: string, count: nat, sent: seq<Request>, rest: Trace, whole: Trace)
  {
    && file + FileText(rest.pages) == FileText(whole.pages)
    && count + LineCount(rest.pages) == LineCount(whole.pages)
    && sent + rest.sent == whole.sent
  }

  /** Doing one more page: its text goes to the file and its requests to those sent. */
  lemma PageDone(file: string, count: nat, sent: seq<Request>, lines: seq<string>, requests: seq<Request>,
                 rest: Trace, whole: Trace)
    requires Progress(file, count, sent, Trace([lines] + rest.pages, requests + rest.sent), whole)
    ensures Progress(file + Frame(lines), count + |lines|, sent + requests, rest, whole)
  {
    var pages := [lines] + rest.pages;
    assert pages[1..] == rest.pages;
    assert FileText(pages) == Frame(lines) + FileText(rest.pages);
    ConcatAssoc(file, Frame(lines), FileText(rest.pages));
    assert LineCount(pages) == |lines| + LineCount(rest.pages);
    ConcatAssoc(sent, requests, rest.sent);
  }

  /**
    Concatenation regroups freely. Stated apart so that `PageDone` uses it as
    a fact instead of proving it among the dump's definitions.
  */
  lemma ConcatAssoc<T>(a: seq<T>, b: seq<T>, c: seq<T>)
    ensures a + (b + c) == (a + b) + c
  {
  }

  /** With nothing left, the progress is the whole dump. */
  lemma AllDone(file: string, count: nat, sent: seq<Request>, whole: Trace)
    requires Progress(file, count, sent, Trace([], []), whole)
    ensures file == FileText(whole.pages) && count == LineCount(whole.pages) && sent == whole.sent
  {
    assert file + "" == file && sent + [] == sent;
  }

  /**
    Runs the dump: the first scroll search, then the page loop. The file is
    modelled by the text appended to it; `count` is the number of lines
    written, which the source reports as progress.
  */
  method DumpToCsv(host: string, index: string, docType: Option<string>, query: Option<string>,
                   first: Reply, next: seq<Reply>, toCsv: Fields -> Option<string>)
    returns (file: string, sent: seq<Request>, count: nat)
    ensures file == FileText(Dump(host, index, docType, query, first, next, toCsv).pages)
    ensures sent == Dump(host, index, docType, query, first, next, toCsv).sent
    ensures count == LineCount(Dump(host, index, docType, query, first, next, toCsv).pages)
  {
    var request := FirstScrollRequest(host, index, docType, query);
    if !HasStatus(first, StatusOk) {
      return "", [request], 0;
    }
    var result := first.parsed;
    var found := HitsOf(result);
    if found.None? || !HasTotal(result) {
      return "", [request], 0;
    }
    var scrolled;
    file, scrolled, count := ScrollPages(host, ScrollIdOf(result), found.value, next, toCsv);
    sent := [request] + scrolled;
  }

  /**
    The page loop of the dump: write the page's lines, ask for the next page
    with the first reply's scroll id, and go on while pages come back
    non-empty. `count`, reported as progress after each page, equals the
    number of lines written so far.
  */
  method ScrollPages(host: string, scrollId: Option<string>, firstPage: seq<Json>, next: seq<Reply>,
                     toCsv: Fields -> Option<string>)
    returns (file: string, sent: seq<Request>, count: nat)
    ensures file == FileText(DumpFrom(host, scrollId, firstPage, next, 0, toCsv).pages)
    ensures sent == DumpFrom(host, scrollId, firstPage, next, 0, toCsv).sent
    ensures count == LineCount(DumpFrom(host, scrollId, firstPage, next, 0, toCsv).pages)
  {
    ghost var whole := DumpFrom(host, scrollId, firstPage, next, 0, toCsv);
    file := "";
    sent := [];
    var page := firstPage;
    count := 0;
    var k := 0;
    ghost var todo := whole;
    assert "" + FileText(whole.pages) == FileText(whole.pages) && [] + whole.sent == whole.sent;
    while |page| > 0
      invariant k <= |next| && todo == DumpFrom(host, scrollId, page, next, k, toCsv)
      invariant Progress(file, count, sent, todo, whole)
      decreases |next| - k
    {
      var chunk, added, requests, more, rest := ScrollStep(host, scrollId, page, next, k, toCsv);
      if chunk.None? {
        AllDone(file, count, sent, whole);
        return;
      }
      PageDone(file, count, sent, CsvLines(page, toCsv).value, requests, rest, whole);
      count := count + added;
      file := file + chunk.value;
      sent := sent + requests;
      todo := rest;
      if more.None? {
        AllDone(file, count, sent, whole);
        return;
      }
      page := more.value;
      k := k + 1;
    }
    AllDone(file, count, sent, whole);
  }

  /**
    One pass of the page loop on a non-empty page: the page's text, the
    number of its lines, the scroll request sent after it, and the next
    page when the loop goes on. How the dump from here continues is stated
    through `DumpFrom`; `rest` is what remains of it after this page.
  */
  method ScrollStep(host: string, scrollId: Option<string>, page: seq<Json>, next: seq<Reply>, k: nat,
                    toCsv: Fields -> Option<string>)
    returns (chunk: Option<string>, added: nat, requests: seq<Request>, more: Option<seq<Json>>, ghost rest: Trace)
    requires |page| > 0
    ensures chunk.None? <==> CsvLines(page, toCsv).None?
    ensures chunk.None? ==> DumpFrom(host, scrollId, page, next, k, toCsv) == Trace([], []) && more.None?
    ensures chunk.Some? ==>
              var lines := CsvLines(page, toCsv).value;
              && chunk.value == Frame(lines) && added == |lines|
              && DumpFrom(host, scrollId, page, next, k, toCsv) == Trace([lines] + rest.pages, requests + rest.sent)
              && (more.None? ==> rest == Trace([], []))
              && (more.Some? ==> k < |next| && rest == DumpFrom(host, scrollId, more.value, next, k + 1, toCsv))
  {
    chunk, added := CsvChunk(page, toCsv);
    requests := [];
    more := None;
    rest := Trace([], []);
    if chunk.None? || scrollId.None? {
      return;
    }
    var request := GetRequest(ScrollUrl(host, scrollId.value));
    requests := [request];
    var reply := ScrollReply(next, k);
    if HasStatus(reply, StatusOk) {
      more := HitsOf(reply.parsed);
      if more.Some? {
        rest := DumpFrom(host, scrollId, more.value, next, k + 1, toCsv);
      }
    }
  }

  /**
    The text one page appends to the file and the number of lines in it;
    None where a hit is not an object and the page is abandoned.
  */
  method CsvChunk(page: seq<Json>, toCsv: Fields -> Option<string>) returns (chunk: Option<string>, added: nat)
    ensures chunk.None? <==> CsvLines(page, toCsv).None?
    ensures chunk.Some? ==> chunk.value == Frame(CsvLines(page, toCsv).value) && added == |CsvLines(page, toCsv).value|
  {
    var text := "";
    ghost var lines: seq<string> := [];
    added := 0;
    for i := 0 to |page|
      invariant CsvLines(page[..i], toCsv) == Some(lines)
      invariant text == Frame(lines) && added == |lines|
    {
      CsvLinesSnoc(page[..i], page[i], toCsv);
      assert page[..i + 1] == page[..i] + [page[i]];
      if !page[i].JObj? {
        CsvLinesFailsOnward(page, i + 1, toCsv);
        return None, added;
      }
      var csvLine := toCsv(page[i].fields);
      if csvLine.Some? {
        FrameConcat(lines, [csvLine.value]);
        text := text + (csvLine.value + "\n");
        lines := lines + [csvLine.value];
        added := added + 1;
      } else {
        assert lines + [] == lines;
      }
      assert CsvLines(page[..i + 1], toCsv) == Some(lines);
    }
    assert page[..|page|] == page;
    chunk := Some(text);
  }

  lemma CsvLinesSnoc(hits: seq<Json>, hit: Json, toCsv: Fields -> Option<string>)
    ensures CsvLines(hits + [hit], toCsv) ==
            if CsvLines(hits, toCsv).None? || !hit.JObj? then None
            else Some(CsvLines(hits, toCsv).value + (if toCsv(hit.fields).Some? then [toCsv(hit.fields).value] else []))
  {
    assert (hits + [hit])[..|hits|] == hits;
  }

  /** Once a hit fails the cast, every longer prefix of the page fails too. */
  lemma {:induction false} CsvLinesFailsOnward(hits: seq<Json>, i: nat, toCsv: Fields -> Option<string>)
    requires 0 < i <= |hits| && CsvLines(hits[..i], toCsv).None?
    ensures CsvLines(hits, toCsv).None?
    decreases |hits| - i
  {
    if i < |hits| {
      assert hits[..i + 1][..i] == hits[..i];
      CsvLinesFailsOnward(hits, i + 1, toCsv);
    } else {
      assert hits[..i] == hits;
    }
  }

  /** A failed first search ends the dump after one request, with nothing written. */
  lemma DumpStopsOnFailedFirstSearch(host: string, index: string, docType: Option<string>, query: Option<string>,
                                     first: Reply, next: seq<Reply>, toCsv: Fields -> Option<string>)
    requires !HasStatus(first, StatusOk)
    ensures Dump(host, index, docType, query, first, next, toCsv) == Trace([], [FirstScrollRequest(host, index, docType, query)])
  {
  }

  /**
    From a loop head, every scroll request asks for the same scroll id, and
    one page is written per scroll request plus at most one more.
  */
  lemma {:induction false} DumpFromReusesScrollId(host: string, scrollId: Option<string>, hits: seq<Json>,
                                                  next: seq<Reply>, k: nat, toCsv: Fields -> Option<string>)
    ensures var t := DumpFrom(host, scrollId, hits, next, k, toCsv);
            (scrollId.None? ==> t.sent == []) &&
            forall i :: 0 <= i < |t.sent| ==> t.sent[i] == GetRequest(ScrollUrl(host, scrollId.value))
    ensures var t := DumpFrom(host, scrollId, hits, next, k, toCsv);
            |t.sent| <= |t.pages| <= |t.sent| + 1
    decreases |next| - k
  {
    if |hits| > 0 && CsvLines(hits, toCsv).Some? && scrollId.Some? {
      var reply := ScrollReply(next, k);
      if HasStatus(reply, StatusOk) && HitsOf(reply.parsed).Some? {
        DumpFromReusesScrollId(host, scrollId, HitsOf(reply.parsed).value, next, k + 1, toCsv);
      }
    }
  }

  /**
    After the first search, every request of a dump is a scroll request for
    the first reply's `_scroll_id`, never one taken from a later page.
  */
  lemma DumpReusesFirstScrollId(host: string, index: string, docType: Option<string>, query: Option<string>,
                                first: Reply, next: seq<Reply>, toCsv: Fields -> Option<string>)
    ensures var t := Dump(host, index, docType, query, first, next, toCsv);
            && |t.sent| >= 1 && t.sent[0] == FirstScrollRequest(host, index, docType, query)
            && (|t.sent| > 1 ==> ScrollIdOf(first.parsed).Some?)
            && (forall i :: 1 <= i < |t.sent| ==> t.sent[i] == GetRequest(ScrollUrl(host, ScrollIdOf(first.parsed).value)))
            && |t.sent| - 1 <= |t.pages| <= |t.sent|
  {
    if HasStatus(first, StatusOk) && HitsOf(first.parsed).Some? && HasTotal(first.parsed) {
      DumpFromReusesScrollId(host, ScrollIdOf(first.parsed), HitsOf(first.parsed).value, next, 0, toCsv);
    }
  }

  /**
    The dump never asks past the first reply that ends the scroll: if reply
    `j` does not continue it, at most `j - k + 1` scroll requests are sent
    from a loop head that has used `k` replies.
  */
  lemma {:induction false} DumpFromStopsAtFirstEnd(host: string, scrollId: Option<string>, hits: seq<Json>,
                                                   next: seq<Reply>, k: nat, j: nat, toCsv: Fields -> Option<string>)
    requires k <= j && !Continues(ScrollReply(next, j))
    ensures |DumpFrom(host, scrollId, hits, next, k, toCsv).sent| <= j - k + 1
    decreases |next| - k
  {
    if |hits| > 0 && CsvLines(hits, toCsv).Some? && scrollId.Some? {
      var reply := ScrollReply(next, k);
      if HasStatus(reply, StatusOk) && HitsOf(reply.parsed).Some? {
        var more := HitsOf(reply.parsed).value;
        if k == j {
          assert |more| == 0;
        } else {
          DumpFromStopsAtFirstEnd(host, scrollId, more, next, k + 1, j, toCsv);
        }
      }
    }
  }

  /** A dump sends the first search and at most one scroll request per reply the server gives, plus one. */
  lemma DumpRequestBound(host: string, index: string, docType: Option<string>, query: Option<string>,
                         first: Reply, next: seq<Reply>, toCsv: Fields -> Option<string>)
    ensures |Dump(host, index, docType, query, first, next, toCsv).sent| <= |next| + 2
  {
    if HasStatus(first, StatusOk) && HitsOf(first.parsed).Some? && HasTotal(first.parsed) {
      DumpFromStopsAtFirstEnd(host, ScrollIdOf(first.parsed), HitsOf(first.parsed).value, next, 0, |next|, toCsv);
    }
  }

  /** A page yields at most one line per hit, and only when every hit is an object. */
  lemma {:induction false} CsvLinesBound(hits: seq<Json>, toCsv: Fields -> Option<string>)
    requires CsvLines(hits, toCsv).Some?
    ensures |CsvLines(hits, toCsv).value| <= |hits|
    ensures forall i :: 0 <= i < |hits| ==> hits[i].JObj?
  {
    if hits != [] {
      var prefix := hits[..|hits| - 1];
      CsvLinesBound(prefix, toCsv);
      forall i | 0 <= i < |hits| ensures hits[i].JObj? {
        if i < |hits| - 1 {
          assert prefix[i] == hits[i];
        }
      }
    }
  }

  /** The reply body of a scroll search: the scroll id and, under `hits`, the total and the page of hits. */
  function ScrollReplyFields(hits: seq<Json>, total: int, scrollId: string): Fields
  {
    [("_scroll_id", JStr(scrollId)), ("hits", JObj([("total", JNum(total)), ("hits", JArr(hits))]))]
  }

  /**
    The dump's readers recover what a scroll reply carries: its page, its
    total and its scroll id. A reply with only a page has no total and no
    scroll id, and a reply without `hits` has no page.
  */
  lemma ReadersOfScrollReply(hits: seq<Json>, total: int, scrollId: string)
    ensures var f := ScrollReplyFields(hits, total, scrollId);
            HitsOf(Some(f)) == Some(hits) && HasTotal(Some(f)) && ScrollIdOf(Some(f)) == Some(scrollId)
    ensures var g := [("hits", JObj([("hits", JArr(hits))]))];
            HitsOf(Some(g)) == Some(hits) && !HasTotal(Some(g)) && ScrollIdOf(Some(g)).None?
    ensures HitsOf(Some([("_scroll_id", JStr(scrollId))])).None? && HitsOf(None).None?
  {
    var h := [("total", JNum(total)), ("hits", JArr(hits))];
    assert Member(h, "total") == Some(JNum(total));
    var f := ScrollReplyFields(hits, total, scrollId);
    assert f[..|f| - 1] == [("_scroll_id", JStr(scrollId))];
    assert Member(f, "_scroll_id") == Some(JStr(scrollId));
    var hg := [("hits", JArr(hits))];
    assert hg[..0] == [];
    assert Member(hg, "total").None?;
    var g := [("hits", JObj(hg))];
    assert g[..0] == [];
    assert Member(g, "_scroll_id").None?;
    var idOnly := [("_scroll_id", JStr(scrollId))];
    assert idOnly[..0] == [];
    assert Member(idOnly, "hits").None?;
  }

  /**
    A page of objects always converts; when the mapper gives a line for
    every hit, line m is the line of hit m.
  */
  lemma {:induction false} CsvLinesOfObjects(hits: seq<Json>, toCsv: Fields -> Option<string>)
    requires forall m :: 0 <= m < |hits| ==> hits[m].JObj?
    ensures CsvLines(hits, toCsv).Some?
    ensures (forall m :: 0 <= m < |hits| ==> toCsv(hits[m].fields).Some?) ==>
              && |CsvLines(hits, toCsv).value| == |hits|
              && forall m :: 0 <= m < |hits| ==> CsvLines(hits, toCsv).value[m] == toCsv(hits[m].fields).value
  {
    if hits != [] {
      var prefix := hits[..|hits| - 1];
      assert forall m :: 0 <= m < |prefix| ==> prefix[m] == hits[m];
      CsvLinesOfObjects(prefix, toCsv);
    }
  }

  /**
    The scroll replies hand out `pages[1..]` in order and then an empty
    page: reply j is a 200 carrying page j + 1, and reply |pages| - 1 a 200
    carrying no hits.
  */
  predicate ServesPages(next: seq<Reply>, pages: seq<seq<Json>>)
  {
    && 1 <= |pages| <= |next|
    && (forall j :: 0 <= j < |pages| - 1 ==> HasStatus(next[j], StatusOk) && HitsOf(next[j].parsed) == Some(pages[j + 1]))
    && HasStatus(next[|pages| - 1], StatusOk) && HitsOf(next[|pages| - 1].parsed) == Some([])
  }

  /** Every page holds at least one hit and every hit is an object. */
  predicate ObjectPages(pages: seq<seq<Json>>)
  {
    forall i :: 0 <= i < |pages| ==> |pages[i]| > 0 && forall m :: 0 <= m < |pages[i]| ==> pages[i][m].JObj?
  }

  /** From loop head k on, each remaining page is written and followed by one scroll request. */
  lemma {:induction false} DumpFromOfPages(host: string, scrollId: string, pages: seq<seq<Json>>, next: seq<Reply>,
                                           k: nat, toCsv: Fields -> Option<string>)
    requires ServesPages(next, pages) && ObjectPages(pages) && k < |pages|
    ensures var t := DumpFrom(host, Some(scrollId), pages[k], next, k, toCsv);
            && |t.pages| == |pages| - k && |t.sent| == |pages| - k
            && forall i :: 0 <= i < |t.pages| ==> CsvLines(pages[k + i], toCsv) == Some(t.pages[i])
    decreases |pages| - k
  {
    CsvLinesOfObjects(pages[k], toCsv);
    var t := DumpFrom(host, Some(scrollId), pages[k], next, k, toCsv);
    var lines := CsvLines(pages[k], toCsv).value;
    var reply := ScrollReply(next, k);
    if k == |pages| - 1 {
      assert HitsOf(reply.parsed) == Some([]);
      assert t.pages == [lines];
    } else {
      assert HitsOf(reply.parsed) == Some(pages[k + 1]);
      DumpFromOfPages(host, scrollId, pages, next, k + 1, toCsv);
      var rest := DumpFrom(host, Some(scrollId), pages[k + 1], next, k + 1, toCsv);
      assert t.pages == [lines] + rest.pages;
      forall i | 0 < i < |t.pages| ensures CsvLines(pages[k + i], toCsv) == Some(t.pages[i]) {
        assert t.pages[i] == rest.pages[i - 1];
        assert k + 1 + (i - 1) == k + i;
      }
    }
  }

  /**
    A dump over a scroll that serves `pages` and then an empty page writes
    one chunk per page, page i's CSV lines, and sends the first search and
    then one scroll request per page, all for the first reply's scroll id.
  */
  lemma DumpOfPages(host: string, index: string, docType: Option<string>, query: Option<string>,
                    first: Reply, next: seq<Reply>, pages: seq<seq<Json>>, toCsv: Fields -> Option<string>)
    requires ServesPages(next, pages) && ObjectPages(pages)
    requires HasStatus(first, StatusOk) && HasTotal(first.parsed)
    requires HitsOf(first.parsed) == Some(pages[0]) && ScrollIdOf(first.parsed).Some?
    ensures var t := Dump(host, index, docType, query, first, next, toCsv);
            && |t.pages| == |pages|
            && (forall i :: 0 <= i < |pages| ==> CsvLines(pages[i], toCsv) == Some(t.pages[i]))
            && |t.sent| == |pages| + 1
            && t.sent[0] == FirstScrollRequest(host, index, docType, query)
            && forall i :: 1 <= i < |t.sent| ==> t.sent[i] == GetRequest(ScrollUrl(host, ScrollIdOf(first.parsed).value))
  {
    var id := ScrollIdOf(first.parsed).value;
    DumpFromOfPages(host, id, pages, next, 0, toCsv);
    DumpFromReusesScrollId(host, Some(id), pages[0], next, 0, toCsv);
    var rest := DumpFrom(host, Some(id), pages[0], next, 0, toCsv);
    forall i | 0 <= i < |pages| ensures CsvLines(pages[i], toCsv) == Some(rest.pages[i]) {
      assert 0 + i == i;
    }
  }
}

=== FILE: text.dfy ===
/**
  String helpers shared by the client: newline framing of bulk payloads,
  Java's `String.split` for the two patterns the client uses, the
  space-stripping applied to document URLs, and the prefix/separator/suffix
  join the query helpers rely on.
*/
module Text {

  /** No character of `s` belongs to `cs`. */
  predicate Avoids(s: string, cs: set<char>)
  {
    forall i :: 0 <= i < |s| ==> s[i] !in cs
  }

  /** Each line followed by a newline: the framing of a bulk request body. */
  function Frame(lines: seq<string>): string
  {
    if lines == [] then "" else lines[0] + "\n" + Frame(lines[1..])
  }

  lemma {:induction false} FrameConcat(a: seq<string>, b: seq<string>)
    ensures Frame(a + b) == Frame(a) + Frame(b)
  {
    if a == [] {
      assert a + b == b;
    } else {
      assert (a + b)[1..] == a[1..] + b;
      FrameConcat(a[1..], b);
    }
  }

  lemma FrameOfTwo(a: string, b: string)
    ensures Frame([a, b]) == a + "\n" + b + "\n"
  {
    assert [a, b][1..] == [b];
    assert [b][1..] == [];
    assert Frame([b]) == b + "\n" + Frame([]);
  }

  /** A string avoids a set exactly when both halves do. */
  lemma AvoidsConcat(a: string, b: string, cs: set<char>)
    ensures Avoids(a + b, cs) <==> Avoids(a, cs) && Avoids(b, cs)
  {
    if Avoids(a, cs) && Avoids(b, cs) {
      forall i | 0 <= i < |a + b| ensures (a + b)[i] !in cs {
        if i >= |a| { assert (a + b)[i] == b[i - |a|]; }
      }
    }
    if Avoids(a + b, cs) {
      forall i | 0 <= i < |a| ensures a[i] !in cs {
        assert (a + b)[i] == a[i];
      }
      forall i | 0 <= i < |b| ensures b[i] !in cs {
        assert (a + b)[|a| + i] == b[i];
      }
    }
  }

  /**
    The pieces of `s` between single separator characters, empty pieces
    included; a string without separators is one piece.
  */
  function Pieces(s: string, seps: set<char>): (r: seq<string>)
    ensures |r| >= 1
  {
    if s == [] then [""]
    else
      var rest := Pieces(s[1..], seps);
      if s[0] in seps then [""] + rest else [[s[0]] + rest[0]] + rest[1..]
  }

  lemma {:induction false} PiecesNoSeparator(s: string, seps: set<char>)
    requires Avoids(s, seps)
    ensures Pieces(s, seps) == [s]
  {
    if s != [] {
      PiecesNoSeparator(s[1..], seps);
      assert [s[0]] + s[1..] == s;
    }
  }

  lemma {:induction false} PiecesAfterSeparator(x: string, c: char, t: string, seps: set<char>)
    requires Avoids(x, seps) && c in seps
    ensures Pieces(x + [c] + t, seps) == [x] + Pieces(t, seps)
  {
    if x == [] {
      assert x + [c] + t == [c] + t;
      assert ([c] + t)[1..] == t;
    } else {
      var s := x + [c] + t;
      assert s[0] == x[0];
      assert s[1..] == x[1..] + [c] + t;
      PiecesAfterSeparator(x[1..], c, t, seps);
      assert [x[0]] + x[1..] == x;
    }
  }

  /** Splitting a framed payload on newlines gives back its lines, plus the empty tail after the last newline. */
  lemma {:induction false} PiecesOfFrame(lines: seq<string>)
    requires forall k :: 0 <= k < |lines| ==> Avoids(lines[k], {'\n'})
    ensures Pieces(Frame(lines), {'\n'}) == lines + [""]
  {
    if lines != [] {
      PiecesOfFrame(lines[1..]);
      PiecesAfterSeparator(lines[0], '\n', Frame(lines[1..]), {'\n'});
      assert lines[0] + "\n" + Frame(lines[1..]) == lines[0] + ['\n'] + Frame(lines[1..]);
      assert [lines[0]] + lines[1..] == lines;
    }
  }

  /** The elements of `xs` with `sep` between neighbours; the empty sequence joins to "". */
  function Join(xs: seq<string>, sep: string): string
  {
    if xs == [] then "" else if |xs| == 1 then xs[0] else xs[0] + sep + Join(xs[1..], sep)
  }

  /** Splitting on a one-character separator undoes joining on it. */
  lemma {:induction false} PiecesOfJoin(xs: seq<string>, c: char, seps: set<char>)
    requires |xs| >= 1 && c in seps
    requires forall k :: 0 <= k < |xs| ==> Avoids(xs[k], seps)
    ensures Pieces(Join(xs, [c]), seps) == xs
  {
    if |xs| == 1 {
      PiecesNoSeparator(xs[0], seps);
    } else {
      PiecesOfJoin(xs[1..], c, seps);
      PiecesAfterSeparator(xs[0], c, Join(xs[1..], [c]), seps);
      assert [xs[0]] + xs[1..] == xs;
    }
  }

  /** `s` with every space removed (Java's `replace(" ", "")`). */
  function RemoveSpaces(s: string): (r: string)
    ensures Avoids(r, {' '})
    ensures |r| <= |s|
  {
    if s == [] then "" else (if s[0] == ' ' then "" else [s[0]]) + RemoveSpaces(s[1..])
  }

  lemma {:induction false} RemoveSpacesKeepsSpaceFree(s: string)
    requires Avoids(s, {' '})
    ensures RemoveSpaces(s) == s
  {
    if s != [] {
      RemoveSpacesKeepsSpaceFree(s[1..]);
      assert [s[0]] + s[1..] == s;
    }
  }

  lemma {:induction false} RemoveSpacesConcat(a: string, b: string)
    ensures RemoveSpaces(a + b) == RemoveSpaces(a) + RemoveSpaces(b)
  {
    if a == [] {
      assert a + b == b;
    } else {
      assert (a + b)[0] == a[0];
      assert (a + b)[1..] == a[1..] + b;
      RemoveSpacesConcat(a[1..], b);
    }
  }

  /** Removing spaces twice removes nothing more. */
  lemma RemoveSpacesIdempotent(s: string)
    ensures RemoveSpaces(RemoveSpaces(s)) == RemoveSpaces(s)
  {
    RemoveSpacesKeepsSpaceFree(RemoveSpaces(s));
  }

  /** The characters Java's regular expression class `\s` matches. */
  const JavaWhitespace: set<char> := {' ', '\t', '\n', 11 as char, 12 as char, '\r'}

  /** `ps` without its empty elements. */
  function NonEmpty(ps: seq<string>): seq<string>
  {
    if ps == [] then [] else (if ps[0] == "" then [] else [ps[0]]) + NonEmpty(ps[1..])
  }

  /** Filtering leaves no empty element and keeps the order of the others. */
  lemma {:induction false} NonEmptyHasNoEmpty(ps: seq<string>)
    ensures forall k :: 0 <= k < |NonEmpty(ps)| ==> NonEmpty(ps)[k] != ""
    ensures |NonEmpty(ps)| <= |ps|
  {
    if ps != [] {
      NonEmptyHasNoEmpty(ps[1..]);
    }
  }

  lemma {:induction false} NonEmptyKeepsNonEmpty(ps: seq<string>)
    requires forall k :: 0 <= k < |ps| ==> ps[k] != ""
    ensures NonEmpty(ps) == ps
  {
    if ps != [] {
      NonEmptyKeepsNonEmpty(ps[1..]);
      assert [ps[0]] + ps[1..] == ps;
    }
  }

  /** `ps` without its trailing empty elements, as Java's `split` returns it. */
  function DropTrailingEmpty(ps: seq<string>): seq<string>
  {
    if ps == [] then []
    else if ps[|ps| - 1] == "" then DropTrailingEmpty(ps[..|ps| - 1])
    else ps
  }

  /**
    What is dropped is exactly the run of empty strings at the end: the
    result is a prefix of `ps` not ending in "", and every element after it
    is "".
  */
  lemma {:induction false} DropTrailingEmptyShape(ps: seq<string>)
    ensures var r := DropTrailingEmpty(ps);
            && |r| <= |ps| && r == ps[..|r|]
            && (r != [] ==> r[|r| - 1] != "")
            && forall k :: |r| <= k < |ps| ==> ps[k] == ""
  {
    if ps != [] && ps[|ps| - 1] == "" {
      var prefix := ps[..|ps| - 1];
      DropTrailingEmptyShape(prefix);
      var r := DropTrailingEmpty(prefix);
      assert prefix[..|r|] == ps[..|r|];
      forall k | |r| <= k < |ps| ensures ps[k] == "" {
        if k < |prefix| {
          assert prefix[k] == ps[k];
        }
      }
    }
  }

  /** Java's `s.split("\\n")`. */
  function SplitLines(s: string): seq<string>
  {
    if Avoids(s, {'\n'}) then [s] else DropTrailingEmpty(Pieces(s, {'\n'}))
  }

  /** Java's `s.split("\\s+")`: runs of whitespace separate, a leading empty field is kept. */
  function SplitFields(s: string): seq<string>
  {
    if Avoids(s, JavaWhitespace) then [s]
    else
      var ps := Pieces(s, JavaWhitespace);
      DropTrailingEmpty([ps[0]] + NonEmpty(ps[1..]))
  }

  /** No piece holds a separator. */
  lemma {:induction false} PiecesAvoid(s: string, seps: set<char>)
    ensures forall k :: 0 <= k < |Pieces(s, seps)| ==> Avoids(Pieces(s, seps)[k], seps)
  {
    if s != [] {
      PiecesAvoid(s[1..], seps);
      var rest := Pieces(s[1..], seps);
      if s[0] !in seps {
        var head := [s[0]] + rest[0];
        forall i | 0 <= i < |head| ensures head[i] !in seps {
          if i > 0 { assert head[i] == rest[0][i - 1]; }
        }
        var r := [head] + rest[1..];
        forall k | 0 <= k < |r| ensures Avoids(r[k], seps) {
          if k > 0 { assert r[k] == rest[k]; }
        }
      }
    }
  }

  /** Joining the pieces with the one separator gives back the text: splitting loses nothing. */
  lemma {:induction false} JoinOfPieces(s: string, c: char)
    ensures Join(Pieces(s, {c}), [c]) == s
  {
    if s != [] {
      JoinOfPieces(s[1..], c);
      var rest := Pieces(s[1..], {c});
      if s[0] == c {
        assert ([""] + rest)[1..] == rest;
        assert Join([""] + rest, [c]) == "" + [c] + Join(rest, [c]);
      } else {
        var ps := [[s[0]] + rest[0]] + rest[1..];
        assert ps[1..] == rest[1..];
        if |rest| == 1 {
          assert Join(rest, [c]) == rest[0];
        } else {
          assert Join(rest, [c]) == rest[0] + [c] + Join(rest[1..], [c]);
        }
        assert [s[0]] + s[1..] == s;
      }
    }
  }

  /** Filtering keeps only elements of `ps`, so it keeps any property every element has: here, avoiding `cs`. */
  lemma {:induction false} NonEmptyAvoids(ps: seq<string>, cs: set<char>)
    requires forall k :: 0 <= k < |ps| ==> Avoids(ps[k], cs)
    ensures forall k :: 0 <= k < |NonEmpty(ps)| ==> Avoids(NonEmpty(ps)[k], cs)
  {
    if ps != [] {
      NonEmptyAvoids(ps[1..], cs);
      var head := if ps[0] == "" then [] else [ps[0]];
      var r := head + NonEmpty(ps[1..]);
      forall k | 0 <= k < |r| ensures Avoids(r[k], cs) {
        if k >= |head| { assert r[k] == NonEmpty(ps[1..])[k - |head|]; }
      }
    }
  }

  /**
    Java's `split("\\n")`: the text is its newline-separated pieces joined
    by newlines; the lines are those pieces up to the last non-empty one,
    none holds a newline, and only empty pieces are dropped, all at the end.
  */
  lemma SplitLinesShape(s: string)
    ensures var r, ps := SplitLines(s), Pieces(s, {'\n'});
            && Join(ps, "\n") == s
            && |r| <= |ps| && r == ps[..|r|]
            && (forall k :: |r| <= k < |ps| ==> ps[k] == "")
            && (forall k :: 0 <= k < |r| ==> Avoids(r[k], {'\n'}))
            && (s != "" && r != [] ==> r[|r| - 1] != "")
  {
    JoinOfPieces(s, '\n');
    PiecesAvoid(s, {'\n'});
    var ps := Pieces(s, {'\n'});
    if Avoids(s, {'\n'}) {
      PiecesNoSeparator(s, {'\n'});
    } else {
      DropTrailingEmptyShape(ps);
    }
  }

  /**
    Java's `split("\\s+")`: no field holds whitespace, the first field is the
    text before the first whitespace character, every later field is
    non-empty, and there are never more fields than whitespace-separated pieces.
  */
  lemma SplitFieldsShape(s: string)
    ensures var r, ps := SplitFields(s), Pieces(s, JavaWhitespace);
            && |r| <= |ps|
            && (forall k :: 0 <= k < |r| ==> Avoids(r[k], JavaWhitespace))
            && (forall k :: 0 < k < |r| ==> r[k] != "")
            && (r != [] ==> r[0] == ps[0])
  {
    var ps := Pieces(s, JavaWhitespace);
    PiecesAvoid(s, JavaWhitespace);
    if Avoids(s, JavaWhitespace) {
      PiecesNoSeparator(s, JavaWhitespace);
    } else {
      var rest := NonEmpty(ps[1..]);
      NonEmptyHasNoEmpty(ps[1..]);
      NonEmptyAvoids(ps[1..], JavaWhitespace);
      var q := [ps[0]] + rest;
      DropTrailingEmptyShape(q);
      var r := DropTrailingEmpty(q);
      forall k | 0 <= k < |r| ensures Avoids(r[k], JavaWhitespace) && (k > 0 ==> r[k] != "") {
        assert r[k] == q[k];
        if k > 0 { assert q[k] == rest[k - 1]; }
      }
      if r != [] { assert r[0] == q[0]; }
    }
  }

  /** The lines of a non-empty framed text whose last line is not empty are exactly its lines. */
  lemma SplitLinesOfFrame(lines: seq<string>)
    requires lines != [] && lines[|lines| - 1] != ""
    requires forall k :: 0 <= k < |lines| ==> Avoids(lines[k], {'\n'})
    ensures SplitLines(Frame(lines)) == lines
  {
    PiecesOfFrame(lines);
    assert Frame(lines)[|lines[0]|] == '\n';
    assert !Avoids(Frame(lines), {'\n'});
    var ps := lines + [""];
    assert ps[..|ps| - 1] == lines;
    assert DropTrailingEmpty(ps) == DropTrailingEmpty(lines);
    assert DropTrailingEmpty(lines) == lines;
  }

  /** Fields written with single spaces between them are read back by `SplitFields`. */
  lemma SplitFieldsOfJoin(fields: seq<string>)
    requires |fields| >= 1
    requires forall k :: 0 <= k < |fields| ==> fields[k] != "" && Avoids(fields[k], JavaWhitespace)
    ensures SplitFields(Join(fields, " ")) == fields
  {
    if |fields| == 1 {
    } else {
      var s := Join(fields, " ");
      assert s[|fields[0]|] == ' ';
      PiecesOfJoin(fields, ' ', JavaWhitespace);
      NonEmptyKeepsNonEmpty(fields[1..]);
      assert [fields[0]] + fields[1..] == fields;
    }
  }
}
